=== FILE: README.md ===
# verify-validation validator tree, modelled in Dafny

This project models the validator engine of `uk.gov.ida.validation.validators`:

- **Validator tree.** A validator has an optional guard that is tested on the raw context object. When the guard admits the context, the validator extracts a subject (the context itself, or what an optional value provider returns) and runs its body.
- **Predicated leaves** (required, not-empty, string-length, pattern, or any user predicate) test the subject. On failure they append one error built from their message template.
- **Fixed-error leaves** always append their error once admitted.
- **Composites** run their children in order on the composite's subject. They can stop after the first child that raises the error count above the count on entry.

The model is functional. A Java `Object` is a `Value`: `Null`, a string, or an opaque object carrying its `toString()` text. The message collection is an immutable record of three lists (errors, warnings, infos). Validation is a total, structurally recursive function `Validators.Validate` from a validator, a context and a collection to an `Outcome`. The outcome is either `Completed` with the extended collection, or `NullPointer` where the Java code throws a `NullPointerException`. A composite passes a child's `NullPointer` straight up without running the remaining children, as the exception does. Children that the stop flag skips are never evaluated, so nothing about them is required.

Modules:

- `Optional`, `Values`, `Text`: Java `null`, objects, `String.trim()` (characters up to U+0020 are stripped) and `String.length()` (UTF-16 code units).
- `Messaging`: messages and the message collection.
- `Predicates`: `truePredicate` and `falsePredicate`.
- `Rules`: the leaf predicates, their default codes and texts, and Java `int` bounds.
- `Validators`: the tree, guard, subject extraction, report construction and evaluation.
- `Builders`: every constructor.
- `Composites`: the composite's loop against a reference fold that never stops.
- `Behaviour`: what each kind does, stated independently of how `Validate` is written.
- `Scenarios`: concrete cases from the library's unit tests.

In two places the model follows the code and tests rather than a natural reading:

- **Null length.** The doc comment of `StringLengthValidator` (src/main/java/uk/gov/ida/validation/validators/StringLengthValidator.java:11) says it checks the length "if it has a non-null value". The code measures a `null` subject as length 0 and checks that against the bounds (`Rules.NullMeasuresZero`).
- **`hasErrorLike`.** One might expect it to be equality with the template. src/test/java/uk/gov/ida/validation/validators/PredicatedValidatorTest.java:228-229 shows a parameter-less template matching an error that carries two parameters. `Messaging.HasErrorLike` therefore compares field, code and template and ignores parameters.

## Model

| member | source | states |
|---|---|---|
| Values.AsString | src/main/java/uk/gov/ida/validation/validators/AbstractValueProvidedValidator.java:44-48 | the string form is absent exactly for `null`, else it is the object's `toString()` |
| Values.ToStr | src/main/java/uk/gov/ida/validation/validators/PatternValidator.java:23 | `toString()` of a non-null object: a string's own characters, another object's rendering; on `null` it is not defined, and the rules that call it without a null check are exactly the ones `Rules.Applicable` rules out |
| Text.Trim | src/main/java/uk/gov/ida/validation/validators/NotEmptyValidator.java:48 | the result is the slice of the input left after removing every leading and trailing character up to U+0020, and is no longer than the input |
| Text.TrimEmptyIff | src/main/java/uk/gov/ida/validation/validators/NotEmptyValidator.java:48 | trimming gives the empty string exactly when every character is at most U+0020 |
| Text.TrimUnique | src/main/java/uk/gov/ida/validation/validators/StringLengthValidator.java:23 | any string meeting the trim description is the one `Trim` computes |
| Text.TrimIdempotent | src/main/java/uk/gov/ida/validation/validators/StringLengthValidator.java:23 | trimming twice is trimming once |
| Text.TrimUnpadded | src/main/java/uk/gov/ida/validation/validators/StringLengthValidator.java:23 | a string with no blank at either end is its own trim |
| Text.Utf16Length | src/main/java/uk/gov/ida/validation/validators/StringLengthValidator.java:23 | Java's `length()`: each character counts one UTF-16 unit, or two above U+FFFF, so the length is between the number of characters and twice that |
| Text.Utf16LengthBasic | src/main/java/uk/gov/ida/validation/validators/StringLengthValidator.java:23 | text with no character above U+FFFF has a Java length equal to its number of characters |
| Text.Utf16LengthSupplementary | src/main/java/uk/gov/ida/validation/validators/StringLengthValidator.java:23 | text with a character above U+FFFF has a Java length greater than its number of characters |
| Messaging.FieldMessage | src/main/java/uk/gov/ida/validation/messages/Message.java:8-13 | a field message carries its field, code and template as given; parameters are absent when none are given, else kept in order |
| Messaging.GlobalMessage | src/main/java/uk/gov/ida/validation/messages/Message.java:4-13 | a global message has no field; code, template and parameters as for a field message |
| Messaging.ParametersOf | src/main/java/uk/gov/ida/validation/messages/Message.java:36-42 | parameters are recorded exactly when at least one is given, in the given order |
| Messaging.Equals | src/test/java/uk/gov/ida/validation/messages/MessageImplTest.java:133-169 | equality holds exactly when the other message is present and agrees on field, code, template and parameter contents |
| Messaging.EqualsProperties | src/test/java/uk/gov/ida/validation/messages/MessageImplTest.java:133-158 | equality is reflexive, symmetric and transitive, never holds against `null`, separates global from field messages, and implies template likeness |
| Messaging.AddError | src/main/java/uk/gov/ida/validation/validators/PredicatedValidator.java:93 | an error is appended at the end; warnings and infos are unchanged |
| Messaging.AddWarning | src/test/java/uk/gov/ida/validation/validators/CompositeValidatorTest.java:190-192 | a warning is appended; errors and infos are unchanged |
| Messaging.AddInfo | src/test/java/uk/gov/ida/validation/validators/CompositeValidatorTest.java:190-192 | an info is appended; errors and warnings are unchanged |
| Messaging.HasErrors | src/main/java/uk/gov/ida/validation/validators/CompositeValidator.java:96 | `hasErrors()`: the error list is non-empty |
| Messaging.ErrorCount | src/main/java/uk/gov/ida/validation/validators/CompositeValidator.java:96 | `hasErrors() ? size : 0` is exactly the number of errors |
| Messaging.Like | src/test/java/uk/gov/ida/validation/validators/PredicatedValidatorTest.java:226-228 | an error is like a template when field, code and template text agree; parameters are ignored, since the reported error carries `[context, subject]` and the parameter-less template still matches |
| Messaging.HasErrorLike | src/test/java/uk/gov/ida/validation/validators/PredicatedValidatorTest.java:226-228 | `hasErrorLike(t)`: some error in the collection is like `t` |
| Messaging.AddedErrorIsLike | src/test/java/uk/gov/ida/validation/validators/PredicatedValidatorTest.java:226-228 | after appending an error, `hasErrorLike` finds it by its own template and the error count has grown by one |
| Predicates.TruePredicate | src/main/java/uk/gov/ida/validation/validators/Predicates.java:11-13 | accepts every object |
| Predicates.FalsePredicate | src/main/java/uk/gov/ida/validation/validators/Predicates.java:15-17 | rejects every object |
| Rules.Applicable | src/main/java/uk/gov/ida/validation/validators/PatternValidator.java:23 | a rule fails to return exactly when it is the pattern rule on a `null` subject; every rule returns on a non-null subject |
| Rules.MeasuredLength | src/main/java/uk/gov/ida/validation/validators/StringLengthValidator.java:22-23 | the measured length is 0 exactly for `null` or all-blank text, and at most twice the number of characters of the text |
| Rules.Holds | src/main/java/uk/gov/ida/validation/validators/RequiredValidator.java:49 | required holds exactly when the subject has a string form; not-empty holds exactly when the length rule would measure at least 1 |
| Rules.RequiredHolds | src/main/java/uk/gov/ida/validation/validators/RequiredValidator.java:49 | the required rule passes exactly for a non-null subject |
| Rules.NotEmptyHolds | src/main/java/uk/gov/ida/validation/validators/NotEmptyValidator.java:48 | the not-empty rule passes exactly when the subject is non-null and its text has a character above U+0020 |
| Rules.StringLengthHolds | src/main/java/uk/gov/ida/validation/validators/StringLengthValidator.java:21-26 | the length rule passes exactly when the trimmed Java length (UTF-16 units) is at least the minimum, at most the maximum, for whichever bounds are set, and at most `Integer.MAX_VALUE` when no maximum is set |
| Rules.NullMeasuresZero | src/main/java/uk/gov/ida/validation/validators/StringLengthValidator.java:22-23 | a `null` subject measures 0 and passes exactly when the bounds admit 0 |
| Rules.PatternHolds | src/main/java/uk/gov/ida/validation/validators/PatternValidator.java:23 | the pattern rule passes exactly when the whole text of the non-null subject matches |
| Rules.DefaultLengthTemplate | src/main/java/uk/gov/ida/validation/validators/StringLengthValidator.java:104-116 | both bounds select the min-max text, the minimum alone the min text, the maximum alone the max text, and no bound no text, each case both ways |
| Validators.Subject | src/main/java/uk/gov/ida/validation/validators/AbstractValueProvidedValidator.java:38-42 | with no provider the subject is the context; with one it is the provider applied to the context |
| Validators.SubjectAsString | src/main/java/uk/gov/ida/validation/validators/AbstractValueProvidedValidator.java:44-48 | the subject's string form is absent exactly for a `null` subject, else it is its `toString()` |
| Validators.Report | src/main/java/uk/gov/ida/validation/validators/PredicatedValidator.java:93-101 | the reported error has the template's field, code and text; it reuses the template's parameters when it has some, else it carries `[context, subject]`, and an empty parameter list is recorded as absent, as `fieldMessage` does |
| Validators.Validate | src/main/java/uk/gov/ida/validation/validators/AbstractConditionalValidator.java:67-72 | a rejected context completes with the collection unchanged; whenever validation completes it has only appended errors, leaving warnings and infos unchanged |
| Validators.Body | src/main/java/uk/gov/ida/validation/validators/FixedErrorValidator.java:66-78 | a fixed-error body throws exactly when it has no message and otherwise appends exactly one error; a predicated body with no validation throws, and when it completes it has appended at most one error |
| Validators.RunChildren | src/main/java/uk/gov/ida/validation/validators/CompositeValidator.java:98-104 | the children's loop, when it completes, has only appended errors |
| Builders.Unconditional | src/main/java/uk/gov/ida/validation/validators/AbstractConditionalValidator.java:46-47 | the no-argument constructor leaves the guard absent |
| Builders.Conditional | src/main/java/uk/gov/ida/validation/validators/AbstractConditionalValidator.java:54-56 | the one-argument constructor stores the guard |
| Builders.WithProvider | src/main/java/uk/gov/ida/validation/validators/AbstractValueProvidedValidator.java:23-25 | the provider-only constructor leaves the guard absent |
| Builders.WithConditionAndProvider | src/main/java/uk/gov/ida/validation/validators/AbstractValueProvidedValidator.java:27-30 | both are stored unchanged |
| Builders.MessageOnly | src/main/java/uk/gov/ida/validation/validators/AbstractValidator.java:46-48 | the message-only constructor leaves guard and provider absent; `getMessage` returns the message |
| Builders.ConditionOnly | src/main/java/uk/gov/ida/validation/validators/AbstractValidator.java:55-57 | the condition-only constructor leaves message and provider absent |
| Builders.ConditionAndMessage | src/main/java/uk/gov/ida/validation/validators/AbstractValidator.java:59-61 | guard and message are stored and the provider is absent |
| Builders.MessageAndProvider | src/main/java/uk/gov/ida/validation/validators/AbstractValidator.java:63-65 | message and provider are stored and the guard is absent |
| Builders.PredicatedValidator | src/main/java/uk/gov/ida/validation/validators/PredicatedValidator.java:74-77 | the full constructor stores guard, provider, message and validation |
| Builders.SetValidation | src/main/java/uk/gov/ida/validation/validators/PredicatedValidator.java:84-86 | `setValidation` replaces the rule and leaves guard, provider and message unchanged |
| Builders.RequiredDefault | src/main/java/uk/gov/ida/validation/validators/RequiredValidator.java:47-53 | the default required validator is unguarded and unprovided, with the global message "required" / "Value is required" |
| Builders.RequiredValidator | src/main/java/uk/gov/ida/validation/validators/RequiredValidator.java:67-69 | the result is a predicated validator with the non-null rule, the given guard and provider, and the given message |
| Builders.NotEmptyDefault | src/main/java/uk/gov/ida/validation/validators/NotEmptyValidator.java:46-52 | the default not-empty validator is unguarded and unprovided, with the global message "empty" / "Value is required and must not be empty" |
| Builders.NotEmptyValidator | src/main/java/uk/gov/ida/validation/validators/NotEmptyValidator.java:66-68 | the result is a predicated validator with the not-empty rule, the given guard and provider, and the given message |
| Builders.StringLengthDefault | src/main/java/uk/gov/ida/validation/validators/StringLengthValidator.java:38-46 | the bounds-only constructor uses a global "length" message whose text depends on which bounds are set, with no parameters |
| Builders.StringLengthValidator | src/main/java/uk/gov/ida/validation/validators/StringLengthValidator.java:74-84 | the result is a predicated validator with the length rule over the given bounds, the given guard and provider, and the given message |
| Builders.PatternDefault | src/main/java/uk/gov/ida/validation/validators/PatternValidator.java:26-30 | the pattern-only constructor uses the global "pattern" message with the not-empty text |
| Builders.PatternValidator | src/main/java/uk/gov/ida/validation/validators/PatternValidator.java:44-48 | the result is a predicated validator with the full-match rule of the given pattern, the given guard and provider, and the given message |
| Builders.FixedFromMessage | src/main/java/uk/gov/ida/validation/validators/FixedErrorValidator.java:42-44 | without a condition the guard admits every object, and no provider is set |
| Builders.FixedFromCode | src/main/java/uk/gov/ida/validation/validators/FixedErrorValidator.java:46-48 | the message is the global message of the code and text, and the guard admits everything |
| Builders.FixedFromFieldCode | src/main/java/uk/gov/ida/validation/validators/FixedErrorValidator.java:50-52 | the message is the field message of the field, code and text, and the guard admits everything |
| Builders.FixedWhen | src/main/java/uk/gov/ida/validation/validators/FixedErrorValidator.java:54-56 | guard and message are stored; no provider |
| Builders.FixedWhenCode | src/main/java/uk/gov/ida/validation/validators/FixedErrorValidator.java:58-60 | guard stored, global message of the code and text; no provider |
| Builders.FixedWhenFieldCode | src/main/java/uk/gov/ida/validation/validators/FixedErrorValidator.java:62-64 | guard stored, field message of the field, code and text; no provider |
| Builders.CompositeOf | src/main/java/uk/gov/ida/validation/validators/CompositeValidator.java:49-52 | children in the given order, no guard, no provider, `stopOnFirstError` false |
| Builders.CompositeValidator | src/main/java/uk/gov/ida/validation/validators/CompositeValidator.java:82-90 | guard, stop flag, provider and children are stored as given |
| Composites.RunAll | src/main/java/uk/gov/ida/validation/validators/CompositeValidator.java:98-99 | running every child in order, stopping only when one throws, only appends errors |
| Composites.RunAllSplit | src/main/java/uk/gov/ida/validation/validators/CompositeValidator.java:98-99 | running a prefix of the children and then the rest is running them all |
| Composites.NoStopRunsAll | src/main/java/uk/gov/ida/validation/validators/CompositeValidator.java:101 | without the stop flag the loop runs every child, in list order |
| Composites.StopRunsUpToFirstError | src/main/java/uk/gov/ida/validation/validators/CompositeValidator.java:100-103 | with the stop flag the loop ends exactly as running the children up to the first one that throws or lifts the error count above the baseline, and every shorter prefix completes at or below it; nothing is assumed of the children after it |
| Composites.LaterChildrenSkipped | src/main/java/uk/gov/ida/validation/validators/CompositeValidator.java:101-103 | once the loop has stopped or thrown, appending more children, of any kind, does not change the outcome |
| Composites.ErrorFreeChildrenAllRun | src/main/java/uk/gov/ida/validation/validators/CompositeValidator.java:96-103 | if running all the children completes with no error beyond the baseline, every one of them runs even with the stop flag |
| Composites.ValidateComposite | src/main/java/uk/gov/ida/validation/validators/CompositeValidator.java:93-107 | the Java loop with `break`, leaving at once when a child throws, computes the same outcome as the recursive definition |
| Behaviour.GuardOnlyGates | src/main/java/uk/gov/ida/validation/validators/AbstractConditionalValidator.java:67-69 | the body ignores the guard: changing the guard never changes what the body does |
| Behaviour.GuardThenBody | src/main/java/uk/gov/ida/validation/validators/AbstractConditionalValidator.java:67-72 | the guard is tested on the raw context; if it rejects, the collection is returned unchanged, else the result is that of the same validator without a guard |
| Behaviour.TrueGuardIsNoGuard | src/main/java/uk/gov/ida/validation/validators/Predicates.java:11-13 | a validator guarded by `truePredicate` behaves exactly like the unguarded one |
| Behaviour.FalseGuardAddsNothing | src/main/java/uk/gov/ida/validation/validators/Predicates.java:15-17 | any validator guarded by `falsePredicate` completes on every object and adds nothing, even one whose body would throw |
| Behaviour.PredicatedOutcome | src/main/java/uk/gov/ida/validation/validators/PredicatedValidator.java:90-104 | the collection is unchanged exactly when the guard rejects or the rule holds for the subject; it throws exactly when admitted with no rule, a rule that cannot be applied, or a failing rule and no message; otherwise exactly the reported error is appended and `hasErrorLike` finds it |
| Behaviour.PredicatedWithMessageCompletes | src/main/java/uk/gov/ida/validation/validators/PredicatedValidator.java:90-104 | a predicated validator with a message and a rule that suits its subject always completes, either unchanged or with its reported error appended |
| Behaviour.FixedAlwaysReports | src/main/java/uk/gov/ida/validation/validators/FixedErrorValidator.java:66-78 | an unconditioned fixed-error validator completes on every object with its error appended, with the parameters `[object, object]` when the template has none |
| Behaviour.FixedWhenOutcome | src/main/java/uk/gov/ida/validation/validators/FixedErrorValidator.java:54-56 | a guarded fixed-error validator appends its error exactly when the guard admits and otherwise completes unchanged |
| Behaviour.RequiredOutcome | src/main/java/uk/gov/ida/validation/validators/RequiredValidator.java:49-69 | a required validator always completes; it leaves the collection unchanged exactly when its guard rejects or the provided subject is non-null, else appends its reported error |
| Behaviour.NotEmptyOutcome | src/main/java/uk/gov/ida/validation/validators/NotEmptyValidator.java:48-68 | a not-empty validator always completes; it leaves the collection unchanged exactly when its guard rejects or the subject is non-null with a non-blank text, else appends its reported error |
| Behaviour.StringLengthOutcome | src/main/java/uk/gov/ida/validation/validators/StringLengthValidator.java:21-84 | a string-length validator always completes; it leaves the collection unchanged exactly when its guard rejects or the trimmed Java length (0 for null) is within the set bounds, else appends its reported error |
| Behaviour.PatternOutcome | src/main/java/uk/gov/ida/validation/validators/PatternValidator.java:23-48 | a pattern validator throws exactly when admitted on a `null` subject; it leaves the collection unchanged exactly when its guard rejects or the whole subject text matches, else appends its reported error |
| Behaviour.ChildrenSeeExtractedSubject | src/main/java/uk/gov/ida/validation/validators/CompositeValidator.java:94-99 | the children of a composite with a provider validate the provided value as their context |
| Behaviour.CompositeRunsEveryChild | src/main/java/uk/gov/ida/validation/validators/CompositeValidator.java:98-104 | an admitted non-stopping composite runs every child in order |
| Behaviour.CompositeStopsAtFirstNewError | src/main/java/uk/gov/ida/validation/validators/CompositeValidator.java:96-103 | an admitted stopping composite runs exactly the children up to the first that throws or raises the count recorded on entry, whatever the later children are |
| Behaviour.PriorErrorsDoNotStop | src/main/java/uk/gov/ida/validation/validators/CompositeValidator.java:96 | errors already present on entry never stop a composite: if the children complete without adding any, all of them run |
| Behaviour.EmptyCompositeIsIdentity | src/main/java/uk/gov/ida/validation/validators/CompositeValidator.java:93-107 | a composite with no children completes with the collection unchanged |
| Behaviour.ErrorsDependOnlyOnErrors | src/main/java/uk/gov/ida/validation/validators/CompositeValidator.java:100 | whether validation throws, and the errors it produces, depend only on the incoming errors, never on incoming warnings or infos |
| Behaviour.ChildErrorsDependOnlyOnErrors | src/main/java/uk/gov/ida/validation/validators/CompositeValidator.java:98-103 | the same for the composite's loop over its children |
| Behaviour.IncomingWarningsAndInfosIrrelevant | src/main/java/uk/gov/ida/validation/validators/CompositeValidator.java:96-100 | adding a warning and an info to the incoming collection never changes whether validation throws or the errors it produces, since the composite reads only the error count |
| Scenarios.NotEmptyCases | src/test/java/uk/gov/ida/validation/validators/NotEmptyValidatorTest.java:65-75 | validating `null` adds an error like the default message; validating a plain object adds nothing |
| Scenarios.NotEmptyTextCases | src/test/java/uk/gov/ida/validation/validators/NotEmptyValidatorTest.java:61-63 | the not-empty rule rejects "  " and accepts "  Hello "; the default validator on "  " completes with an error like its default message, and on "  Hello " leaves the collection unchanged |
| Scenarios.NotEmptyDefaultOn | src/main/java/uk/gov/ida/validation/validators/NotEmptyValidator.java:48-52 | the default not-empty validator leaves the collection unchanged exactly for a non-null object whose text is not all blank, and otherwise adds an error like its default message |
| Scenarios.BoundedUtf16Length | src/test/java/uk/gov/ida/validation/validators/StringLengthValidatorTest.java:32-71 | with bounds 5 and 10, text without surrounding blanks passes exactly when its Java length is 5 to 10 |
| Scenarios.BoundedLength | src/test/java/uk/gov/ida/validation/validators/StringLengthValidatorTest.java:32-71 | with bounds 5 and 10, text without surrounding blanks and without characters above U+FFFF passes exactly when it has 5 to 10 characters |
| Scenarios.NotEmptyProvidedCases | src/test/java/uk/gov/ida/validation/validators/NotEmptyValidatorTest.java:107-134 | through a property provider, a bean whose property is null is reported and one whose property is "stringValue" is not |
| Scenarios.StringLengthAcceptsBounds | src/test/java/uk/gov/ida/validation/validators/StringLengthValidatorTest.java:46-57 | with bounds 5 and 10, "12345" and "1234567890" pass |
| Scenarios.StringLengthRejectsOutside | src/test/java/uk/gov/ida/validation/validators/StringLengthValidatorTest.java:59-71 | with bounds 5 and 10, validating "123" or "12345678901" completes with an error like the min-max length message |
| Scenarios.DigitsLengthCase | src/test/java/uk/gov/ida/validation/validators/StringLengthValidatorTest.java:32-71 | a string of decimal digits always completes; it passes bounds 5 and 10 exactly when it has 5 to 10 digits, and otherwise gets an error like the min-max length message |
| Scenarios.LengthDefaultReports | src/main/java/uk/gov/ida/validation/validators/StringLengthValidator.java:38-46 | the bounds-only string-length validator always completes, and when it rejects, the collection has an error like its default message for those bounds |
| Scenarios.SupplementaryLengthCase | src/main/java/uk/gov/ida/validation/validators/StringLengthValidator.java:23 | three emoji are three characters but six UTF-16 units, so a maximum of 5 completes with an error like the max length message |
| Scenarios.EmojiMeasuresSix | src/main/java/uk/gov/ida/validation/validators/StringLengthValidator.java:22-23 | three emoji have nothing to trim and measure six UTF-16 units |
| Scenarios.PatternCases | src/test/java/uk/gov/ida/validation/validators/PatternValidatorTest.java:53-89 | with a digits pattern, "123" passes, "123a" is reported, and under a false guard "123a" is not |
| Scenarios.FixedErrorParameterCases | src/test/java/uk/gov/ida/validation/validators/FixedErrorValidatorTest.java:172-218 | the default parameters are `[object, object]`; three supplied parameters are kept in order |
| Scenarios.CompositeStopCases | src/test/java/uk/gov/ida/validation/validators/CompositeValidatorTest.java:161-178 | a stopping composite whose first child is a fixed error never runs the second child, whatever it is; a non-stopping one runs both |
| Scenarios.RequiredThenPatternOnNull | src/main/java/uk/gov/ida/validation/validators/CompositeValidator.java:98-104 | on `null`, a stopping composite of the default required and pattern validators completes with the one "required" error and never runs the pattern; without the stop the pattern runs on `null` and throws |
| Scenarios.GuardBeforeProviderCases | src/main/java/uk/gov/ida/validation/validators/AbstractConditionalValidator.java:67-72 | the guard judges the raw context while the rule judges the provided value |

## Left out

- Message rendering through `java.text.MessageFormat` (`getRenderedMessage`) is not modelled. It is locale-sensitive library formatting. Templates are kept as text.
- The regex engine is a parameter of the model: `Rules.Regex` carries the pattern source and a full-match function. `Pattern.compile` failing on a malformed pattern is not modelled.
- Reflection-based `toString` and `hashCode` are not modelled. They are diagnostics only.
- Java generics and unchecked casts are replaced by the single dynamic `Value` type.
- Validators are immutable values, and a composite's children form a finite, acyclic sequence. In Java a validator is a shared mutable object. `setValidation` changes it in place, for every composite holding it. A composite keeps the caller's array by reference and `getValidators` returns that same array, so elements can be replaced after construction, even making a composite contain itself. None of these changes after construction is modelled: `Builders.SetValidation` returns a new value.
- Java strings holding an unpaired surrogate are outside the model. A Dafny `char` is a Unicode scalar value, so `Str` cannot hold a lone surrogate code unit, which Java would count as one unit of `length()`.
- A `NullPointerException` is the `NullPointer` outcome, without its stack trace or message. It arises from a missing validation predicate, a missing message when an error must be reported, or a pattern rule on a `null` subject. Other exceptions thrown by user-supplied guards, providers or predicates are not modelled, since those are total functions here.
- Errors a composite's earlier children appended before a later child threw are not observable in the model. In Java they stay in the caller's mutable collection. The `NullPointer` outcome carries no collection.
- Object identity (`sameInstance`) is not modelled, nor are mock call counts. In Java a validator returns the same mutable collection it was given. Here the returned collection extends the given one, and composites thread it from child to child. Java composites discard the children's return values, which is the same thing for every validator kind modelled, since each returns the collection it was passed.
- User-written subclasses with their own `doValidate` are not a validator kind here, e.g. the tests' anonymous validator that adds warnings. Every modelled kind adds only errors. "Warnings never stop a composite" is covered through `Composites.ErrorFreeChildrenAllRun` and `Behaviour.ErrorsDependOnlyOnErrors`.
- `MessagesImpl` and `MessageImpl` are not part of this model. The collection is a record of three lists, and `globalMessage`/`fieldMessage` are `Messaging.GlobalMessage`/`Messaging.FieldMessage`. Their behaviour (absent parameters when none are given, likeness ignoring parameters) is taken from the library's tests.
- Getters (`getCondition`, `getValueProvider`, `getMessage`, `getValidation`, `getPattern`, `getMinLengthInclusive`, `getMaxLengthInclusive`, `isStopOnFirstError`, `getValidators`) are not separate functions. They are the datatype's fields.
- The shorter constructor overloads of the predicated, required, not-empty, string-length, pattern and composite validators are not separate functions. They delegate to the full constructors, passing `null` or `false`, and the model passes `None` or `false`.
- A `null` children array and `null` children of a composite are not modelled. Children form a sequence of validators.
- `Validator.java`, `ConditionalValidator.java` and `ValueProvidedValidator.java` only declare signatures, which the datatype and `Validators.Validate` implement.
- Concurrency is not modelled. The code has none.

=== FILE: behaviour.dfy ===
/**
 * What validation does, stated per validator kind and for guards, providers
 * and composites, in terms independent of how `Validate` is written.
 */
module Behaviour {
  import opened Optional
  import opened Values
  import opened Text
  import opened Messaging
  import opened Predicates
  import opened Rules
  import opened Validators
  import opened Builders
  import opened Composites

  /** `v` with its guard replaced by `condition`; everything else kept. */
  function WithGuard(v: Validator, condition: Option<Value -> bool>): (w: Validator)
    ensures SetupOf(w) == Setup(condition, SetupOf(v).provider)
  {
    match v
    case Predicated(c, rule) => Predicated(c.(setup := c.setup.(condition := condition)), rule)
    case FixedError(c) => FixedError(c.(setup := c.setup.(condition := condition)))
    case Composite(s, stop, cs) => Composite(s.(condition := condition), stop, cs)
  }

  /** The guard only gates: the body does not look at it. */
  lemma GuardOnlyGates(v: Validator, condition: Option<Value -> bool>, ctx: Value, m: Messages)
    ensures Body(WithGuard(v, condition), ctx, m) == Body(v, ctx, m)
  {
  }

  /**
   * The guard is evaluated on the raw context, before any provider: a guarded
   * validator either returns the messages untouched or behaves exactly as the
   * same validator without a guard.
   */
  lemma GuardThenBody(v: Validator, ctx: Value, m: Messages)
    ensures !Admits(SetupOf(v).condition, ctx) ==> Validate(v, ctx, m) == Completed(m)
    ensures Admits(SetupOf(v).condition, ctx) ==> Validate(v, ctx, m) == Validate(WithGuard(v, None), ctx, m)
  {
    GuardOnlyGates(v, None, ctx, m);
  }

  /** `truePredicate()` as a guard is the same as no guard. */
  lemma TrueGuardIsNoGuard(v: Validator, ctx: Value, m: Messages)
    ensures Validate(WithGuard(v, Some(TruePredicate())), ctx, m) == Validate(WithGuard(v, None), ctx, m)
  {
    GuardOnlyGates(v, None, ctx, m);
    GuardOnlyGates(v, Some(TruePredicate()), ctx, m);
  }

  /**
   * `falsePredicate()` as a guard disables any validator, whatever its body
   * would have done, thrown included.
   */
  lemma FalseGuardAddsNothing(v: Validator, ctx: Value, m: Messages)
    ensures Validate(WithGuard(v, Some(FalsePredicate())), ctx, m) == Completed(m)
  {
  }

  /**
   * A predicated validator leaves the messages alone exactly when its guard
   * rejects the context or its rule holds for the subject; it throws when the
   * rule is missing, cannot be applied to the subject, or fails with no message
   * to report; otherwise it appends one error built from its template.
   */
  lemma PredicatedOutcome(v: Validator, ctx: Value, m: Messages)
    requires v.Predicated?
    ensures Validate(v, ctx, m) == Completed(m) <==>
              || !Admits(SetupOf(v).condition, ctx)
              || (var s := Subject(SetupOf(v), ctx);
                  v.validation.Some? && Applicable(v.validation.value, s) && Holds(v.validation.value, s))
    ensures Validate(v, ctx, m).NullPointer? <==>
              && Admits(SetupOf(v).condition, ctx)
              && (var s := Subject(SetupOf(v), ctx);
                  || v.validation.None?
                  || !Applicable(v.validation.value, s)
                  || (!Holds(v.validation.value, s) && v.config.message.None?))
    ensures Validate(v, ctx, m) != Completed(m) && Validate(v, ctx, m).Completed? ==>
              && v.config.message.Some?
              && Validate(v, ctx, m) == Completed(AddError(m, Report(v.config.message.value, ctx, Subject(SetupOf(v), ctx))))
              && HasErrorLike(Validate(v, ctx, m).messages, v.config.message.value)
  {
    if Admits(SetupOf(v).condition, ctx) {
      var r := Body(v, ctx, m);
      if r != Completed(m) && r.Completed? {
        AddedErrorIsLike(m, Report(v.config.message.value, ctx, Subject(SetupOf(v), ctx)));
      }
    }
  }

  /**
   * A fixed-error validator built without a condition reports on every
   * context; a template without parameters gets `[ctx, ctx]`, since it has no
   * provider.
   */
  lemma FixedAlwaysReports(message: Message, ctx: Value, m: Messages)
    ensures Validate(FixedFromMessage(message), ctx, m) == Completed(AddError(m, Report(message, ctx, ctx)))
    ensures message.parameters.None? ==>
              Validate(FixedFromMessage(message), ctx, m).messages.errors[|m.errors|].parameters == Some([ctx, ctx])
    ensures HasErrorLike(Validate(FixedFromMessage(message), ctx, m).messages, message)
  {
    assert Body(FixedFromMessage(message), ctx, m) == Completed(AddError(m, Report(message, ctx, ctx)));
    AddedErrorIsLike(m, Report(message, ctx, ctx));
  }

  /** A guarded fixed-error validator reports exactly when its guard admits. */
  lemma FixedWhenOutcome(condition: Value -> bool, message: Message, ctx: Value, m: Messages)
    ensures condition(ctx) ==> Validate(FixedWhen(condition, message), ctx, m) == Completed(AddError(m, Report(message, ctx, ctx)))
    ensures !condition(ctx) ==> Validate(FixedWhen(condition, message), ctx, m) == Completed(m)
  {
  }

  /** A leaf built from a message and a rule that suits the subject never throws. */
  lemma PredicatedWithMessageCompletes(v: Validator, ctx: Value, m: Messages)
    requires v.Predicated? && v.config.message.Some? && v.validation.Some?
    requires Applicable(v.validation.value, Subject(SetupOf(v), ctx))
    ensures Validate(v, ctx, m).Completed?
    ensures Validate(v, ctx, m) != Completed(m) ==>
              Validate(v, ctx, m) == Completed(AddError(m, Report(v.config.message.value, ctx, Subject(SetupOf(v), ctx))))
  {
    PredicatedOutcome(v, ctx, m);
  }

  /** `RequiredValidator` reports exactly a null subject. */
  lemma RequiredOutcome(condition: Option<Value -> bool>, message: Message, provider: Option<Value -> Value>,
                        ctx: Value, m: Messages)
    ensures Validate(RequiredValidator(condition, message, provider), ctx, m).Completed?
    ensures Validate(RequiredValidator(condition, message, provider), ctx, m) == Completed(m) <==>
              !Admits(condition, ctx) || !Subject(Setup(condition, provider), ctx).Null?
    ensures Validate(RequiredValidator(condition, message, provider), ctx, m) != Completed(m) ==>
              Validate(RequiredValidator(condition, message, provider), ctx, m)
                == Completed(AddError(m, Report(message, ctx, Subject(Setup(condition, provider), ctx))))
  {
    var v := RequiredValidator(condition, message, provider);
    RequiredHolds(Subject(Setup(condition, provider), ctx));
    PredicatedOutcome(v, ctx, m);
  }

  /** `NotEmptyValidator` reports a null subject and one whose text is all blanks. */
  lemma NotEmptyOutcome(condition: Option<Value -> bool>, message: Message, provider: Option<Value -> Value>,
                        ctx: Value, m: Messages)
    ensures Validate(NotEmptyValidator(condition, message, provider), ctx, m).Completed?
    ensures Validate(NotEmptyValidator(condition, message, provider), ctx, m) == Completed(m) <==>
              || !Admits(condition, ctx)
              || (var s := Subject(Setup(condition, provider), ctx); !s.Null? && !AllBlank(ToStr(s)))
    ensures Validate(NotEmptyValidator(condition, message, provider), ctx, m) != Completed(m) ==>
              Validate(NotEmptyValidator(condition, message, provider), ctx, m)
                == Completed(AddError(m, Report(message, ctx, Subject(Setup(condition, provider), ctx))))
  {
    var v := NotEmptyValidator(condition, message, provider);
    NotEmptyHolds(Subject(Setup(condition, provider), ctx));
    PredicatedOutcome(v, ctx, m);
  }

  /**
   * `StringLengthValidator` reports a subject whose trimmed Java length is
   * outside the bounds that are set; a null subject measures 0.
   */
  lemma StringLengthOutcome(condition: Option<Value -> bool>, message: Message, provider: Option<Value -> Value>,
                            lo: Option<Int32>, hi: Option<Int32>, ctx: Value, m: Messages)
    ensures Validate(StringLengthValidator(condition, message, provider, lo, hi), ctx, m).Completed?
    ensures Validate(StringLengthValidator(condition, message, provider, lo, hi), ctx, m) == Completed(m) <==>
              || !Admits(condition, ctx)
              || (var n := MeasuredLength(Subject(Setup(condition, provider), ctx));
                  (lo.None? || n >= lo.value as int) && (hi.None? || n <= hi.value as int) && n <= INT_MAX)
    ensures Validate(StringLengthValidator(condition, message, provider, lo, hi), ctx, m) != Completed(m) ==>
              Validate(StringLengthValidator(condition, message, provider, lo, hi), ctx, m)
                == Completed(AddError(m, Report(message, ctx, Subject(Setup(condition, provider), ctx))))
  {
    var v := StringLengthValidator(condition, message, provider, lo, hi);
    StringLengthHolds(lo, hi, Subject(Setup(condition, provider), ctx));
    PredicatedOutcome(v, ctx, m);
  }

  /**
   * `PatternValidator` reports a subject whose text the whole pattern does not
   * match, and throws on a null subject.
   */
  lemma PatternOutcome(condition: Option<Value -> bool>, message: Message, provider: Option<Value -> Value>,
                       re: Regex, ctx: Value, m: Messages)
    ensures Validate(PatternValidator(condition, message, provider, re), ctx, m).NullPointer? <==>
              Admits(condition, ctx) && Subject(Setup(condition, provider), ctx).Null?
    ensures Validate(PatternValidator(condition, message, provider, re), ctx, m) == Completed(m) <==>
              || !Admits(condition, ctx)
              || (var s := Subject(Setup(condition, provider), ctx); !s.Null? && re.fullMatch(ToStr(s)))
    ensures Validate(PatternValidator(condition, message, provider, re), ctx, m) != Completed(m) &&
            Validate(PatternValidator(condition, message, provider, re), ctx, m).Completed? ==>
              Validate(PatternValidator(condition, message, provider, re), ctx, m)
                == Completed(AddError(m, Report(message, ctx, Subject(Setup(condition, provider), ctx))))
  {
    var v := PatternValidator(condition, message, provider, re);
    var s := Subject(Setup(condition, provider), ctx);
    if !s.Null? {
      PatternHolds(re, s);
    }
    PredicatedOutcome(v, ctx, m);
  }

  /**
   * A composite's provider extracts the subject once; its children validate
   * that subject as if it were the context handed to an unprovided composite.
   */
  lemma ChildrenSeeExtractedSubject(condition: Option<Value -> bool>, provider: Value -> Value, stop: bool,
                                    cs: seq<Validator>, ctx: Value, m: Messages)
    requires Admits(condition, ctx)
    ensures Validate(CompositeValidator(condition, stop, Some(provider), cs), ctx, m)
         == Validate(CompositeValidator(None, stop, None, cs), provider(ctx), m)
  {
  }

  /** Without `stopOnFirstError` an admitted composite runs every child in order. */
  lemma CompositeRunsEveryChild(setup: Setup, cs: seq<Validator>, ctx: Value, m: Messages)
    requires Admits(setup.condition, ctx)
    ensures Validate(Composite(setup, false, cs), ctx, m) == RunAll(cs, Subject(setup, ctx), m)
  {
    NoStopRunsAll(cs, Subject(setup, ctx), ErrorCount(m), m);
  }

  /**
   * With `stopOnFirstError` an admitted composite runs its children up to and
   * including the first one after which there are more errors than on entry
   * (or that throws), and no further.
   */
  lemma CompositeStopsAtFirstNewError(setup: Setup, cs: seq<Validator>, ctx: Value, m: Messages)
    requires Admits(setup.condition, ctx)
    ensures exists k: nat :: StopsAfter(cs, Subject(setup, ctx), ErrorCount(m), m, k)
                          && Validate(Composite(setup, true, cs), ctx, m) == RunAll(cs[..k], Subject(setup, ctx), m)
  {
    var subject := Subject(setup, ctx);
    StopRunsUpToFirstError(cs, subject, ErrorCount(m), m);
    var k: nat :| StopsAfter(cs, subject, ErrorCount(m), m, k)
               && RunChildren(cs, subject, true, ErrorCount(m), m) == RunAll(cs[..k], subject, m);
    assert Validate(Composite(setup, true, cs), ctx, m) == RunAll(cs[..k], subject, m);
  }

  /**
   * Errors already in the collection do not stop a composite: the stop only
   * looks at errors its children add, so if they add none, all of them run.
   */
  lemma PriorErrorsDoNotStop(setup: Setup, cs: seq<Validator>, ctx: Value, m: Messages)
    requires Admits(setup.condition, ctx)
    requires Continues(RunAll(cs, Subject(setup, ctx), m), ErrorCount(m))
    ensures Validate(Composite(setup, true, cs), ctx, m) == RunAll(cs, Subject(setup, ctx), m)
  {
    ErrorFreeChildrenAllRun(cs, Subject(setup, ctx), ErrorCount(m), m);
  }

  /** A composite with no children changes nothing. */
  lemma EmptyCompositeIsIdentity(setup: Setup, stop: bool, ctx: Value, m: Messages)
    ensures Validate(Composite(setup, stop, []), ctx, m) == Completed(m)
  {
    if Admits(setup.condition, ctx) {
      assert Body(Composite(setup, stop, []), ctx, m) == RunChildren([], Subject(setup, ctx), stop, ErrorCount(m), m);
    }
  }

  /** Two outcomes agree on whether they throw and, if not, on the errors. */
  predicate SameErrors(a: Outcome, b: Outcome) {
    a.NullPointer? == b.NullPointer? && (a.Completed? ==> a.messages.errors == b.messages.errors)
  }

  /**
   * The errors validation appends depend only on the errors already present:
   * warnings and infos in the incoming collection never change the outcome.
   */
  lemma {:induction false} ErrorsDependOnlyOnErrors(v: Validator, ctx: Value, m: Messages, m': Messages)
    requires m.errors == m'.errors
    ensures SameErrors(Validate(v, ctx, m), Validate(v, ctx, m'))
    decreases v, 1
  {
    if Admits(SetupOf(v).condition, ctx) {
      match v
      case Composite(setup, stop, cs) =>
        ChildErrorsDependOnlyOnErrors(cs, Subject(setup, ctx), stop, ErrorCount(m), m, m');
      case _ =>
    }
  }

  lemma {:induction false} ChildErrorsDependOnlyOnErrors(cs: seq<Validator>, subject: Value, stop: bool, base: nat,
                                                         m: Messages, m': Messages)
    requires m.errors == m'.errors
    ensures SameErrors(RunChildren(cs, subject, stop, base, m), RunChildren(cs, subject, stop, base, m'))
    decreases cs
  {
    if |cs| > 0 {
      ErrorsDependOnlyOnErrors(cs[0], subject, m, m');
      var o, o' := Validate(cs[0], subject, m), Validate(cs[0], subject, m');
      if o.Completed? {
        ChildErrorsDependOnlyOnErrors(cs[1..], subject, stop, base, o.messages, o'.messages);
      }
    }
  }

  /** Warnings and infos already collected never change the errors a validator produces. */
  lemma IncomingWarningsAndInfosIrrelevant(v: Validator, ctx: Value, m: Messages, w: Message, i: Message)
    ensures SameErrors(Validate(v, ctx, AddInfo(AddWarning(m, w), i)), Validate(v, ctx, m))
  {
    ErrorsDependOnlyOnErrors(v, ctx, AddInfo(AddWarning(m, w), i), m);
  }
}

=== FILE: builders.dfy ===
/**
 * The constructors of each validator class. Java overloads that leave an
 * argument out pass `null` for it; here that is `None`.
 */
module Builders {
  import opened Optional
  import opened Values
  import opened Messaging
  import opened Predicates
  import opened Rules
  import opened Validators

  // ----- AbstractConditionalValidator -----

  /** The no-argument constructor: no guard (and no provider). */
  function Unconditional(): (s: Setup)
    ensures s.condition.None? && s.provider.None?
  {
    Setup(None, None)
  }

  /**
   * The one-argument constructor of the conditional and of the value-provided
   * base: stores the guard and leaves the provider absent.
   */
  function Conditional(condition: Value -> bool): (s: Setup)
    ensures s.condition == Some(condition) && s.provider.None?
  {
    Setup(Some(condition), None)
  }

  // ----- AbstractValueProvidedValidator -----

  function WithProvider(provider: Value -> Value): (s: Setup)
    ensures s.condition.None?
    ensures s.provider == Some(provider)
  {
    Setup(None, Some(provider))
  }

  function WithConditionAndProvider(condition: Value -> bool, provider: Value -> Value): (s: Setup)
    ensures s.condition == Some(condition)
    ensures s.provider == Some(provider)
  {
    Setup(Some(condition), Some(provider))
  }

  // ----- AbstractValidator -----

  function MessageOnly(message: Message): (c: Configured)
    ensures c.setup.condition.None? && c.setup.provider.None?
    ensures c.message == Some(message)
  {
    Configured(Setup(None, None), Some(message))
  }

  function ConditionOnly(condition: Value -> bool): (c: Configured)
    ensures c.setup.condition == Some(condition)
    ensures c.message.None? && c.setup.provider.None?
  {
    Configured(Setup(Some(condition), None), None)
  }

  function ConditionAndMessage(condition: Value -> bool, message: Message): (c: Configured)
    ensures c.setup.condition == Some(condition) && c.message == Some(message)
    ensures c.setup.provider.None?
  {
    Configured(Setup(Some(condition), None), Some(message))
  }

  function MessageAndProvider(message: Message, provider: Value -> Value): (c: Configured)
    ensures c.message == Some(message) && c.setup.provider == Some(provider)
    ensures c.setup.condition.None?
  {
    Configured(Setup(None, Some(provider)), Some(message))
  }

  // ----- PredicatedValidator -----

  /** The full constructor; the shorter overloads pass `null` for what they omit. */
  function PredicatedValidator(condition: Option<Value -> bool>, provider: Option<Value -> Value>,
                               message: Message, validation: Option<Rule>): (v: Validator)
    ensures v.Predicated?
    ensures SetupOf(v) == Setup(condition, provider)
    ensures v.config.message == Some(message) && v.validation == validation
  {
    Predicated(Configured(Setup(condition, provider), Some(message)), validation)
  }

  /**
   * `setValidation`: replaces the validation rule; guard, provider and message
   * are untouched.
   */
  function SetValidation(v: Validator, rule: Rule): (w: Validator)
    requires v.Predicated?
    ensures w.Predicated? && w.validation == Some(rule)
    ensures w.config == v.config
  {
    v.(validation := Some(rule))
  }

  // ----- RequiredValidator -----

  function RequiredDefault(): (v: Validator)
    ensures v.Predicated? && v.validation == Some(Required)
    ensures SetupOf(v) == Setup(None, None)
    ensures v.config.message == Some(GlobalMessage(REQUIRED_CODE, Some(REQUIRED_TEXT), []))
  {
    RequiredValidator(None, GlobalMessage(REQUIRED_CODE, Some(REQUIRED_TEXT), []), None)
  }

  function RequiredValidator(condition: Option<Value -> bool>, message: Message,
                             provider: Option<Value -> Value>): (v: Validator)
    ensures v.Predicated? && v.validation == Some(Required)
    ensures SetupOf(v) == Setup(condition, provider)
    ensures v.config.message == Some(message)
  {
    PredicatedValidator(condition, provider, message, Some(Required))
  }

  // ----- NotEmptyValidator -----

  function NotEmptyDefault(): (v: Validator)
    ensures v.Predicated? && v.validation == Some(NotEmpty)
    ensures SetupOf(v) == Setup(None, None)
    ensures v.config.message == Some(GlobalMessage(EMPTY_CODE, Some(NOT_EMPTY_TEXT), []))
  {
    NotEmptyValidator(None, GlobalMessage(EMPTY_CODE, Some(NOT_EMPTY_TEXT), []), None)
  }

  function NotEmptyValidator(condition: Option<Value -> bool>, message: Message,
                             provider: Option<Value -> Value>): (v: Validator)
    ensures v.Predicated? && v.validation == Some(NotEmpty)
    ensures SetupOf(v) == Setup(condition, provider)
    ensures v.config.message == Some(message)
  {
    PredicatedValidator(condition, provider, message, Some(NotEmpty))
  }

  // ----- StringLengthValidator -----

  /** Bounds only: a global "length" message whose text depends on which bounds are set. */
  function StringLengthDefault(lo: Option<Int32>, hi: Option<Int32>): (v: Validator)
    ensures v.Predicated? && v.validation == Some(StringLength(lo, hi))
    ensures SetupOf(v) == Setup(None, None)
    ensures v.config.message.Some?
    ensures IsGlobal(v.config.message.value)
    ensures v.config.message.value.code == LENGTH_CODE
    ensures v.config.message.value.template == DefaultLengthTemplate(lo, hi)
    ensures v.config.message.value.parameters.None?
  {
    StringLengthValidator(None, GlobalMessage(LENGTH_CODE, DefaultLengthTemplate(lo, hi), []), None, lo, hi)
  }

  function StringLengthValidator(condition: Option<Value -> bool>, message: Message,
                                 provider: Option<Value -> Value>,
                                 lo: Option<Int32>, hi: Option<Int32>): (v: Validator)
    ensures v.Predicated? && v.validation == Some(StringLength(lo, hi))
    ensures SetupOf(v) == Setup(condition, provider)
    ensures v.config.message == Some(message)
  {
    PredicatedValidator(condition, provider, message, Some(StringLength(lo, hi)))
  }

  // ----- PatternValidator -----

  function PatternDefault(re: Regex): (v: Validator)
    ensures v.Predicated? && v.validation == Some(Pattern(re))
    ensures SetupOf(v) == Setup(None, None)
    ensures v.config.message == Some(GlobalMessage(PATTERN_CODE, Some(NOT_EMPTY_TEXT), []))
  {
    PatternValidator(None, GlobalMessage(PATTERN_CODE, Some(PATTERN_TEXT), []), None, re)
  }

  function PatternValidator(condition: Option<Value -> bool>, message: Message,
                            provider: Option<Value -> Value>, re: Regex): (v: Validator)
    ensures v.Predicated? && v.validation == Some(Pattern(re))
    ensures SetupOf(v) == Setup(condition, provider)
    ensures v.config.message == Some(message)
  {
    PredicatedValidator(condition, provider, message, Some(Pattern(re)))
  }

  // ----- FixedErrorValidator -----

  /** No condition given: the guard is `truePredicate`, which admits everything. */
  function FixedFromMessage(message: Message): (v: Validator)
    ensures v.FixedError? && v.config.message == Some(message)
    ensures v.config.setup.provider.None?
    ensures v.config.setup.condition.Some? && forall x :: v.config.setup.condition.value(x)
  {
    FixedWhen(TruePredicate(), message)
  }

  function FixedFromCode(code: string, template: string): (v: Validator)
    ensures v.FixedError? && v.config.message == Some(GlobalMessage(code, Some(template), []))
    ensures v.config.setup.provider.None?
    ensures v.config.setup.condition.Some? && forall x :: v.config.setup.condition.value(x)
  {
    FixedFromMessage(GlobalMessage(code, Some(template), []))
  }

  function FixedFromFieldCode(field: string, code: string, template: string): (v: Validator)
    ensures v.FixedError? && v.config.message == Some(FieldMessage(field, code, Some(template), []))
    ensures v.config.setup.provider.None?
    ensures v.config.setup.condition.Some? && forall x :: v.config.setup.condition.value(x)
  {
    FixedFromMessage(FieldMessage(field, code, Some(template), []))
  }

  function FixedWhen(condition: Value -> bool, message: Message): (v: Validator)
    ensures v.FixedError? && v.config.message == Some(message)
    ensures v.config.setup == Setup(Some(condition), None)
  {
    FixedError(Configured(Setup(Some(condition), None), Some(message)))
  }

  function FixedWhenCode(condition: Value -> bool, code: string, template: string): (v: Validator)
    ensures v.FixedError? && v.config.message == Some(GlobalMessage(code, Some(template), []))
    ensures v.config.setup == Setup(Some(condition), None)
  {
    FixedWhen(condition, GlobalMessage(code, Some(template), []))
  }

  function FixedWhenFieldCode(condition: Value -> bool, field: string, code: string, template: string): (v: Validator)
    ensures v.FixedError? && v.config.message == Some(FieldMessage(field, code, Some(template), []))
    ensures v.config.setup == Setup(Some(condition), None)
  {
    FixedWhen(condition, FieldMessage(field, code, Some(template), []))
  }

  // ----- CompositeValidator -----

  /** Children only: no guard, no provider, `stopOnFirstError` false. */
  function CompositeOf(children: seq<Validator>): (v: Validator)
    ensures v.Composite? && v.children == children
    ensures !v.stopOnFirstError
    ensures v.setup == Setup(None, None)
  {
    CompositeValidator(None, false, None, children)
  }

  /** The full constructor; the shorter overloads pass `null` / `false`. */
  function CompositeValidator(condition: Option<Value -> bool>, stopOnFirstError: bool,
                              provider: Option<Value -> Value>, children: seq<Validator>): (v: Validator)
    ensures v.Composite? && v.children == children
    ensures v.stopOnFirstError == stopOnFirstError
    ensures v.setup == Setup(condition, provider)
  {
    Composite(Setup(condition, provider), stopOnFirstError, children)
  }
}

=== FILE: composites.dfy ===
/**
 * The composite validator: an ordered list of children run on the composite's
 * subject, optionally stopping once the children have added an error.
 *
 * `RunAll` is the reference semantics without any stopping; the lemmas here
 * describe the stopping loop in terms of it, and `ValidateComposite` is the
 * loop written the way the Java code writes it.
 */
module Composites {
  import opened Optional
  import opened Values
  import opened Messaging
  import opened Validators

  /** Every child in turn, none skipped; a child that throws ends the run. */
  function RunAll(cs: seq<Validator>, subject: Value, m: Messages): (r: Outcome)
    ensures AppendsErrors(m, r)
    decreases cs
  {
    if |cs| == 0 then Completed(m)
    else
      match Validate(cs[0], subject, m)
      case NullPointer => NullPointer
      case Completed(next) => RunAll(cs[1..], subject, next)
  }

  /** Running a prefix and then the rest is running the whole list. */
  lemma {:induction false} RunAllSplit(cs: seq<Validator>, k: nat, subject: Value, m: Messages)
    requires k <= |cs|
    ensures RunAll(cs, subject, m) ==
              match RunAll(cs[..k], subject, m)
              case NullPointer => NullPointer
              case Completed(mid) => RunAll(cs[k..], subject, mid)
    decreases k
  {
    if k > 0 {
      match Validate(cs[0], subject, m)
      case NullPointer =>
        assert cs[..k][0] == cs[0];
      case Completed(next) =>
        RunAllSplit(cs[1..], k - 1, subject, next);
        assert cs[..k][0] == cs[0];
        assert cs[1..][k - 1..] == cs[k..];
        assert cs[1..][..k - 1] == cs[..k][1..];
    } else {
      assert cs[k..] == cs;
    }
  }

  /** Without `stopOnFirstError` every child runs, in list order. */
  lemma {:induction false} NoStopRunsAll(cs: seq<Validator>, subject: Value, base: nat, m: Messages)
    ensures RunChildren(cs, subject, false, base, m) == RunAll(cs, subject, m)
    decreases cs
  {
    if |cs| > 0 {
      match Validate(cs[0], subject, m)
      case NullPointer =>
      case Completed(next) => NoStopRunsAll(cs[1..], subject, base, next);
    }
  }

  /**
   * Where the stopping loop ends: after `k` children, where every shorter
   * prefix returns with at most `base` errors, and the first `k` children
   * are the whole list, or throw, or leave more than `base` errors.
   */
  ghost predicate StopsAfter(cs: seq<Validator>, subject: Value, base: nat, m: Messages, k: nat) {
    && k <= |cs|
    && (k == |cs| || !Continues(RunAll(cs[..k], subject, m), base))
    && forall j | 0 <= j < k :: Continues(RunAll(cs[..j], subject, m), base)
  }

  /** Running the first `j` children is running the first one, then the next `j - 1`. */
  lemma RunPrefixShift(cs: seq<Validator>, j: nat, subject: Value, m: Messages)
    requires 1 <= j <= |cs|
    ensures RunAll(cs[..j], subject, m) ==
              match Validate(cs[0], subject, m)
              case NullPointer => NullPointer
              case Completed(next) => RunAll(cs[1..][..j - 1], subject, next)
  {
    assert cs[..j][0] == cs[0];
    assert cs[..j][1..] == cs[1..][..j - 1];
  }

  /**
   * One step of the stopping loop: if the first child returns with at most
   * `base` errors and the loop over the rest stops after `k` children, the
   * loop over the whole list stops after `k + 1`.
   */
  lemma StopsAfterShift(cs: seq<Validator>, subject: Value, base: nat, m: Messages, next: Messages, k: nat)
    requires |cs| > 0
    requires ErrorCount(m) <= base
    requires Validate(cs[0], subject, m) == Completed(next) && ErrorCount(next) <= base
    requires StopsAfter(cs[1..], subject, base, next, k)
    ensures StopsAfter(cs, subject, base, m, k + 1)
    ensures RunAll(cs[..k + 1], subject, m) == RunAll(cs[1..][..k], subject, next)
  {
    assert cs[..0] == [];
    forall j | 1 <= j <= k + 1
      ensures RunAll(cs[..j], subject, m) == RunAll(cs[1..][..j - 1], subject, next)
    {
      RunPrefixShift(cs, j, subject, m);
    }
  }

  /**
   * With `stopOnFirstError`, the loop's result is the run of exactly the
   * children up to and including the first one that takes the error count
   * above `base` (or throws); the children after it are never run.
   */
  lemma {:induction false} StopRunsUpToFirstError(cs: seq<Validator>, subject: Value, base: nat, m: Messages)
    requires ErrorCount(m) <= base
    ensures exists k: nat :: StopsAfter(cs, subject, base, m, k)
                        && RunChildren(cs, subject, true, base, m) == RunAll(cs[..k], subject, m)
    decreases cs
  {
    if |cs| == 0 {
      assert cs[..0] == [];
      assert StopsAfter(cs, subject, base, m, 0);
    } else {
      RunPrefixShift(cs, 1, subject, m);
      assert cs[1..][..0] == [];
      assert cs[..0] == [];
      match Validate(cs[0], subject, m)
      case NullPointer =>
        assert StopsAfter(cs, subject, base, m, 1);
      case Completed(next) =>
        if ErrorCount(next) > base {
          assert StopsAfter(cs, subject, base, m, 1);
        } else {
          StopRunsUpToFirstError(cs[1..], subject, base, next);
          var k: nat :| StopsAfter(cs[1..], subject, base, next, k)
                     && RunChildren(cs[1..], subject, true, base, next) == RunAll(cs[1..][..k], subject, next);
          StopsAfterShift(cs, subject, base, m, next, k);
        }
    }
  }

  /**
   * Children after a stop are skipped: once the children in `cs` have raised
   * the error count above `base` (or thrown), appending more children, of any
   * kind, changes nothing.
   */
  lemma {:induction false} LaterChildrenSkipped(cs: seq<Validator>, rest: seq<Validator>, subject: Value, base: nat, m: Messages)
    requires ErrorCount(m) <= base
    requires !Continues(RunChildren(cs, subject, true, base, m), base)
    ensures RunChildren(cs + rest, subject, true, base, m) == RunChildren(cs, subject, true, base, m)
    decreases cs
  {
    assert (cs + rest)[0] == cs[0];
    match Validate(cs[0], subject, m)
    case NullPointer =>
    case Completed(next) =>
      if ErrorCount(next) <= base {
        assert (cs + rest)[1..] == cs[1..] + rest;
        LaterChildrenSkipped(cs[1..], rest, subject, base, next);
      }
  }

  /**
   * Only added errors stop the loop: if running every child returns with at
   * most `base` errors (the children added only warnings or infos, or
   * nothing), every child runs even with `stopOnFirstError` set.
   */
  lemma {:induction false} ErrorFreeChildrenAllRun(cs: seq<Validator>, subject: Value, base: nat, m: Messages)
    requires Continues(RunAll(cs, subject, m), base)
    ensures RunChildren(cs, subject, true, base, m) == RunAll(cs, subject, m)
    decreases cs
  {
    if |cs| > 0 {
      match Validate(cs[0], subject, m)
      case NullPointer =>
      case Completed(next) =>
        assert AppendsErrors(next, RunAll(cs[1..], subject, next));
        ErrorFreeChildrenAllRun(cs[1..], subject, base, next);
    }
  }

  /**
   * `CompositeValidator.doValidate` as the Java loop: validate each child on
   * the extracted subject and break once the error count exceeds the count
   * recorded on entry; an exception from a child leaves the loop at once.
   */
  method ValidateComposite(v: Validator, ctx: Value, m: Messages) returns (r: Outcome)
    requires v.Composite?
    ensures r == Validate(v, ctx, m)
  {
    if !Admits(v.setup.condition, ctx) {
      return Completed(m);
    }
    var subject := Subject(v.setup, ctx);
    var original := ErrorCount(m);
    var cs := v.children;
    var messages := m;
    var i := 0;
    while i < |cs|
      invariant 0 <= i <= |cs|
      invariant RunChildren(cs[i..], subject, v.stopOnFirstError, original, messages) == Validate(v, ctx, m)
    {
      assert cs[i..][0] == cs[i] && cs[i..][1..] == cs[i + 1..];
      var o := Validate(cs[i], subject, messages);
      if o.NullPointer? {
        return NullPointer;
      }
      messages := o.messages;
      i := i + 1;
      if v.stopOnFirstError && ErrorCount(messages) > original {
        break;
      }
    }
    return Completed(messages);
  }
}

=== FILE: messaging.dfy ===
/**
 * Validation messages and the collection validators append them to.
 *
 * A `Message` is an immutable value: an optional field (absent for a "global"
 * message), a code, an optional parameterised template and optional
 * positional parameters. `Messages` keeps three ordered lists, one per
 * severity.
 */
module Messaging {
  import opened Optional
  import opened Values

  datatype Message = Message(
    field: Option<string>,
    code: string,
    template: Option<string>,
    parameters: Option<seq<Value>>)

  /** Parameters are recorded only when at least one was given. */
  function ParametersOf(ps: seq<Value>): (r: Option<seq<Value>>)
    ensures r.None? <==> |ps| == 0
    ensures r.Some? ==> r.value == ps
  {
    if |ps| == 0 then None else Some(ps)
  }

  /** A message about the named field. */
  function FieldMessage(field: string, code: string, template: Option<string>, ps: seq<Value>): (m: Message)
    ensures m.field == Some(field)
    ensures m.code == code && m.template == template
    ensures m.parameters.None? <==> |ps| == 0
    ensures m.parameters.Some? ==> m.parameters.value == ps
  {
    Message(Some(field), code, template, ParametersOf(ps))
  }

  /** A message not tied to any field. */
  function GlobalMessage(code: string, template: Option<string>, ps: seq<Value>): (m: Message)
    ensures IsGlobal(m)
    ensures m.code == code && m.template == template
    ensures m.parameters.None? <==> |ps| == 0
    ensures m.parameters.Some? ==> m.parameters.value == ps
  {
    Message(None, code, template, ParametersOf(ps))
  }

  predicate IsGlobal(m: Message) {
    m.field.None?
  }

  /**
   * `message.equals(other)` where `other` may be `null`: value equality over
   * field, code, template and the parameters' contents, never object identity.
   */
  function Equals(m: Message, other: Option<Message>): (r: bool)
    ensures r <==> && other.Some?
                   && other.value.field == m.field
                   && other.value.code == m.code
                   && other.value.template == m.template
                   && other.value.parameters == m.parameters
  {
    other == Some(m)
  }

  /**
   * Message equality is an equivalence that never holds against `null`; a
   * global message never equals a field message, and equal messages match
   * each other as templates.
   */
  lemma EqualsProperties(a: Message, b: Message, c: Message)
    ensures Equals(a, Some(a))
    ensures !Equals(a, None)
    ensures Equals(a, Some(b)) <==> Equals(b, Some(a))
    ensures Equals(a, Some(b)) && Equals(b, Some(c)) ==> Equals(a, Some(c))
    ensures IsGlobal(a) && !IsGlobal(b) ==> !Equals(a, Some(b))
    ensures Equals(a, Some(b)) ==> Like(a, b) && Like(b, a)
  {
  }

  /** Errors, warnings and infos, each in the order they were added. */
  datatype Messages = Messages(errors: seq<Message>, warnings: seq<Message>, infos: seq<Message>)

  function AddError(m: Messages, e: Message): (r: Messages)
    ensures r.errors == m.errors + [e]
    ensures r.warnings == m.warnings && r.infos == m.infos
  {
    m.(errors := m.errors + [e])
  }

  function AddWarning(m: Messages, w: Message): (r: Messages)
    ensures r.warnings == m.warnings + [w]
    ensures r.errors == m.errors && r.infos == m.infos
  {
    m.(warnings := m.warnings + [w])
  }

  function AddInfo(m: Messages, i: Message): (r: Messages)
    ensures r.infos == m.infos + [i]
    ensures r.errors == m.errors && r.warnings == m.warnings
  {
    m.(infos := m.infos + [i])
  }

  predicate HasErrors(m: Messages) {
    |m.errors| > 0
  }

  /**
   * The error count as the composite validator reads it:
   * `hasErrors() ? getErrors().size() : 0`.
   */
  function ErrorCount(m: Messages): (n: nat)
    ensures n == |m.errors|
  {
    if HasErrors(m) then |m.errors| else 0
  }

  /** `e` matches the template `t` on field, code and template text; parameters are ignored. */
  predicate Like(e: Message, t: Message) {
    e.field == t.field && e.code == t.code && e.template == t.template
  }

  predicate HasErrorLike(m: Messages, t: Message) {
    exists i | 0 <= i < |m.errors| :: Like(m.errors[i], t)
  }

  /** `after` is `before` with messages appended, and nothing removed or reordered. */
  predicate Extends(before: Messages, after: Messages) {
    && before.errors <= after.errors
    && before.warnings <= after.warnings
    && before.infos <= after.infos
  }

  /** An appended error is found by `hasErrorLike` with its own template. */
  lemma AddedErrorIsLike(m: Messages, e: Message)
    ensures HasErrorLike(AddError(m, e), e)
    ensures ErrorCount(AddError(m, e)) == ErrorCount(m) + 1
  {
    assert AddError(m, e).errors[|m.errors|] == e;
  }
}

=== FILE: optional.dfy ===
/** The absent-or-present wrapper used wherever the Java code allows `null`. */
module Optional {

  datatype Option<+T> = None | Some(value: T) {

    /** The wrapped value, or `default` when absent. */
    function GetOr(default: T): T {
      match this
      case Some(v) => v
      case None => default
    }
  }
}

=== FILE: predicates.dfy ===
/** The two constant guards the library offers. */
module Predicates {
  import opened Values

  /** Accepts every object. */
  function TruePredicate(): (p: Value -> bool)
    ensures forall v :: p(v)
  {
    _ => true
  }

  /** Rejects every object. */
  function FalsePredicate(): (p: Value -> bool)
    ensures forall v :: !p(v)
  {
    _ => false
  }
}

=== FILE: rules.dfy ===
/**
 * The tests leaf validators apply to their subject, and the default messages
 * of the four built-in leaf validators (required, not-empty, string-length,
 * pattern).
 */
module Rules {
  import opened Optional
  import opened Values
  import opened Text
  import opened Messaging

  /** Java's `int`, the type of the boxed `Integer` length bounds. */
  newtype Int32 = x: int | -0x8000_0000 <= x < 0x8000_0000

  const INT_MIN: int := -0x8000_0000
  const INT_MAX: int := 0x7fff_ffff

  /**
   * A compiled regular expression: its source text and the full-match test the
   * regex engine performs (`pattern.matcher(s).matches()`).
   */
  datatype Regex = Regex(source: string, fullMatch: string -> bool)

  /** The validation predicate of a leaf validator. */
  datatype Rule =
    | Test(test: Value -> bool)
    | Required
    | NotEmpty
    | StringLength(minInclusive: Option<Int32>, maxInclusive: Option<Int32>)
    | Pattern(regex: Regex)

  /**
   * Whether evaluating `r` on `v` returns rather than throws: the pattern rule
   * calls `toString()` on its subject without a null check, every other rule
   * copes with `null`.
   */
  function Applicable(r: Rule, v: Value): (b: bool)
    ensures v != Null ==> b
    ensures !b <==> r.Pattern? && v == Null
  {
    !(r.Pattern? && v.Null?)
  }

  /**
   * The length the string-length rule measures: the Java length (UTF-16 code
   * units) of the trimmed text, and 0 for `null`.
   */
  function MeasuredLength(v: Value): (n: nat)
    ensures n == 0 <==> v.Null? || AllBlank(ToStr(v))
    ensures !v.Null? ==> n <= 2 * |ToStr(v)|
  {
    match AsString(v)
    case None => 0
    case Some(s) => TrimEmptyIff(s); Utf16Length(Trim(s))
  }

  /**
   * Whether rule `r` accepts the subject `v`. The not-empty rule is the
   * length rule's "trimmed length at least 1", and required is "has a string
   * form".
   */
  function Holds(r: Rule, v: Value): (h: bool)
    requires Applicable(r, v)
    ensures r.Required? ==> (h <==> AsString(v).Some?)
    ensures r.NotEmpty? ==> (h <==> MeasuredLength(v) > 0)
  {
    match r
    case Test(p) => p(v)
    case Required => !v.Null?
    case NotEmpty => !v.Null? && |Trim(ToStr(v))| != 0
    case StringLength(lo, hi) =>
      var len := MeasuredLength(v);
      && len >= (if lo.Some? then lo.value as int else INT_MIN)
      && len <= (if hi.Some? then hi.value as int else INT_MAX)
    case Pattern(re) => re.fullMatch(ToStr(v))
  }

  /** Required passes exactly when the subject is not `null`. */
  lemma RequiredHolds(v: Value)
    ensures Holds(Required, v) <==> v != Null
  {
  }

  /**
   * Not-empty passes exactly when the subject is not `null` and its text has a
   * character above U+0020.
   */
  lemma NotEmptyHolds(v: Value)
    ensures Holds(NotEmpty, v) <==> v != Null && !AllBlank(ToStr(v))
  {
    if !v.Null? {
      TrimEmptyIff(ToStr(v));
    }
  }

  /**
   * String-length passes exactly when the measured length lies within the
   * bounds that are set. An absent maximum stands for `Integer.MAX_VALUE`, the
   * longest a Java string can be.
   */
  lemma StringLengthHolds(lo: Option<Int32>, hi: Option<Int32>, v: Value)
    ensures Holds(StringLength(lo, hi), v) <==>
              && (lo.None? || lo.value as int <= MeasuredLength(v))
              && (hi.None? || MeasuredLength(v) <= hi.value as int)
              && MeasuredLength(v) <= INT_MAX
  {
  }

  /** `null` measures 0: it passes any bounds that admit the empty string. */
  lemma NullMeasuresZero(lo: Option<Int32>, hi: Option<Int32>)
    ensures MeasuredLength(Null) == 0
    ensures Holds(StringLength(lo, hi), Null) <==>
              (lo.None? || lo.value <= 0) && (hi.None? || 0 <= hi.value)
  {
  }

  /** Pattern passes exactly when the whole text matches. */
  lemma PatternHolds(re: Regex, v: Value)
    requires v != Null
    ensures Holds(Pattern(re), v) <==> re.fullMatch(ToStr(v))
  {
  }

  const REQUIRED_CODE: string := "required"
  const REQUIRED_TEXT: string := "Value is required"
  const EMPTY_CODE: string := "empty"
  const NOT_EMPTY_TEXT: string := "Value is required and must not be empty"
  const LENGTH_CODE: string := "length"
  const LENGTH_MIN_MAX_TEXT: string := "Value must be between {0} and {1} characters in length"
  const LENGTH_MIN_TEXT: string := "Value must be more than or equal to {0} characters in length"
  const LENGTH_MAX_TEXT: string := "Value must be less than or equal to {0} characters in length"
  const PATTERN_CODE: string := "pattern"
  /** The same text as the not-empty validator's default, as the Java constant has it. */
  const PATTERN_TEXT: string := "Value is required and must not be empty"

  /**
   * The default string-length template chosen by which bounds are set: both,
   * minimum only, maximum only, or (neither) no template at all.
   */
  function DefaultLengthTemplate(lo: Option<Int32>, hi: Option<Int32>): (t: Option<string>)
    ensures t.None? <==> lo.None? && hi.None?
    ensures t == Some(LENGTH_MIN_MAX_TEXT) <==> lo.Some? && hi.Some?
    ensures t == Some(LENGTH_MIN_TEXT) <==> lo.Some? && hi.None?
    ensures t == Some(LENGTH_MAX_TEXT) <==> lo.None? && hi.Some?
  {
    if lo.Some? && hi.Some? then Some(LENGTH_MIN_MAX_TEXT)
    else if lo.Some? then Some(LENGTH_MIN_TEXT)
    else if hi.Some? then Some(LENGTH_MAX_TEXT)
    else None
  }

}

=== FILE: scenarios.dfy ===
/**
 * Concrete cases of the validators' behaviour: the inputs the library's own
 * unit tests use, with the outcome each test expects.
 */
module Scenarios {
  import opened Optional
  import opened Values
  import opened Text
  import opened Messaging
  import opened Predicates
  import opened Rules
  import opened Validators
  import opened Builders
  import opened Behaviour

  /** A non-null object whose `toString()` is not blank, like `new Object()`. */
  const SomeObject: Value := Opaque(1, "java.lang.Object@1b6d3586")

  /** A stand-in for `Pattern.compile("\\d+")`: one or more decimal digits. */
  predicate Digits(s: string) {
    |s| > 0 && forall i | 0 <= i < |s| :: '0' <= s[i] <= '9'
  }

  const DigitsRegex: Regex := Regex("\\d+", Digits)

  /** The default not-empty validator rejects null and accepts a plain object. */
  lemma NotEmptyCases(m: Messages)
    ensures HasErrorLike(Validate(NotEmptyDefault(), Null, m).messages, GlobalMessage(EMPTY_CODE, Some(NOT_EMPTY_TEXT), []))
    ensures Validate(NotEmptyDefault(), SomeObject, m) == Completed(m)
  {
    NotEmptyDefaultOn(Null, m);
    NotEmptyDefaultOn(SomeObject, m);
    assert !Blank(ToStr(SomeObject)[0]);
  }

  /**
   * Blanks alone are rejected, by the rule and by the default validator, which
   * reports its message; text padded with blanks is accepted.
   */
  lemma NotEmptyTextCases(m: Messages)
    ensures !Holds(NotEmpty, Str("  ")) && Holds(NotEmpty, Str("  Hello "))
    ensures Validate(NotEmptyDefault(), Str("  "), m) != Completed(m)
    ensures Validate(NotEmptyDefault(), Str("  "), m).Completed?
    ensures HasErrorLike(Validate(NotEmptyDefault(), Str("  "), m).messages,
                         GlobalMessage(EMPTY_CODE, Some(NOT_EMPTY_TEXT), []))
    ensures Validate(NotEmptyDefault(), Str("  Hello "), m) == Completed(m)
  {
    assert !Blank(ToStr(Str("  Hello "))[2]);
    NotEmptyHolds(Str("  "));
    NotEmptyHolds(Str("  Hello "));
    NotEmptyDefaultOn(Str("  "), m);
    NotEmptyDefaultOn(Str("  Hello "), m);
  }

  /** The default not-empty validator passes exactly a non-null object whose text is not all blank. */
  lemma NotEmptyDefaultOn(v: Value, m: Messages)
    ensures Validate(NotEmptyDefault(), v, m).Completed?
    ensures Validate(NotEmptyDefault(), v, m) == Completed(m) <==> !v.Null? && !AllBlank(ToStr(v))
    ensures Validate(NotEmptyDefault(), v, m) != Completed(m) ==>
              HasErrorLike(Validate(NotEmptyDefault(), v, m).messages, GlobalMessage(EMPTY_CODE, Some(NOT_EMPTY_TEXT), []))
  {
    var message := GlobalMessage(EMPTY_CODE, Some(NOT_EMPTY_TEXT), []);
    NotEmptyOutcome(None, message, None, v, m);
    AddedErrorIsLike(m, Report(message, v, v));
  }

  /** Bounds 5 and 10 accept texts of lengths 5 and 10. */
  lemma StringLengthAcceptsBounds(m: Messages)
    ensures Validate(StringLengthDefault(Some(5), Some(10)), Str("12345"), m) == Completed(m)
    ensures Validate(StringLengthDefault(Some(5), Some(10)), Str("1234567890"), m) == Completed(m)
  {
    assert Digits("12345") && Digits("1234567890");
    DigitsLengthCase("12345", m);
    DigitsLengthCase("1234567890", m);
  }

  /** Bounds 5 and 10 reject texts of lengths 3 and 11. */
  lemma StringLengthRejectsOutside(m: Messages)
    ensures Validate(StringLengthDefault(Some(5), Some(10)), Str("123"), m) != Completed(m)
    ensures Validate(StringLengthDefault(Some(5), Some(10)), Str("123"), m).Completed?
    ensures HasErrorLike(Validate(StringLengthDefault(Some(5), Some(10)), Str("123"), m).messages,
                         GlobalMessage(LENGTH_CODE, Some(LENGTH_MIN_MAX_TEXT), []))
    ensures Validate(StringLengthDefault(Some(5), Some(10)), Str("12345678901"), m) != Completed(m)
    ensures Validate(StringLengthDefault(Some(5), Some(10)), Str("12345678901"), m).Completed?
    ensures HasErrorLike(Validate(StringLengthDefault(Some(5), Some(10)), Str("12345678901"), m).messages,
                         GlobalMessage(LENGTH_CODE, Some(LENGTH_MIN_MAX_TEXT), []))
  {
    assert Digits("123") && Digits("12345678901");
    DigitsLengthCase("123", m);
    DigitsLengthCase("12345678901", m);
  }

  /** A run of digits passes bounds 5 and 10 exactly when it has 5 to 10 of them. */
  lemma DigitsLengthCase(s: string, m: Messages)
    requires Digits(s)
    ensures Validate(StringLengthDefault(Some(5), Some(10)), Str(s), m).Completed?
    ensures Validate(StringLengthDefault(Some(5), Some(10)), Str(s), m) == Completed(m) <==> 5 <= |s| <= 10
    ensures Validate(StringLengthDefault(Some(5), Some(10)), Str(s), m) != Completed(m) ==>
              HasErrorLike(Validate(StringLengthDefault(Some(5), Some(10)), Str(s), m).messages,
                           GlobalMessage(LENGTH_CODE, Some(LENGTH_MIN_MAX_TEXT), []))
  {
    BoundedLength(s, m);
    LengthDefaultReports(Some(5), Some(10), Str(s), m);
  }

  /**
   * The bounds-only string-length validator always completes, and when it
   * rejects, the collection has an error like its default message.
   */
  lemma LengthDefaultReports(lo: Option<Int32>, hi: Option<Int32>, v: Value, m: Messages)
    ensures Validate(StringLengthDefault(lo, hi), v, m).Completed?
    ensures Validate(StringLengthDefault(lo, hi), v, m) != Completed(m) ==>
              HasErrorLike(Validate(StringLengthDefault(lo, hi), v, m).messages,
                           GlobalMessage(LENGTH_CODE, DefaultLengthTemplate(lo, hi), []))
  {
    var message := GlobalMessage(LENGTH_CODE, DefaultLengthTemplate(lo, hi), []);
    StringLengthOutcome(None, message, None, lo, hi, v, m);
    AddedErrorIsLike(m, Report(message, v, v));
  }

  /** With bounds 5 and 10, unpadded text passes exactly when its Java length is 5 to 10. */
  lemma BoundedUtf16Length(s: string, m: Messages)
    requires |s| > 0 && !Blank(s[0]) && !Blank(s[|s| - 1])
    ensures Validate(StringLengthDefault(Some(5), Some(10)), Str(s), m) == Completed(m) <==> 5 <= Utf16Length(s) <= 10
  {
    TrimUnpadded(s);
    StringLengthOutcome(None, GlobalMessage(LENGTH_CODE, DefaultLengthTemplate(Some(5), Some(10)), []),
                        None, Some(5), Some(10), Str(s), m);
  }

  /**
   * For unpadded text without characters above U+FFFF the Java length is the
   * number of characters, so bounds 5 and 10 accept exactly 5 to 10 of them.
   */
  lemma BoundedLength(s: string, m: Messages)
    requires |s| > 0 && !Blank(s[0]) && !Blank(s[|s| - 1])
    requires forall i | 0 <= i < |s| :: s[i] as int < 0x1_0000
    ensures Validate(StringLengthDefault(Some(5), Some(10)), Str(s), m) == Completed(m) <==> 5 <= |s| <= 10
  {
    Utf16LengthBasic(s);
    BoundedUtf16Length(s, m);
  }

  /**
   * Java measures length in UTF-16 code units: three emoji are six units, so
   * an upper bound of 5 rejects them although they are three characters.
   */
  lemma SupplementaryLengthCase(m: Messages)
    ensures |"\U{1F600}\U{1F600}\U{1F600}"| == 3
    ensures Validate(StringLengthDefault(None, Some(5)), Str("\U{1F600}\U{1F600}\U{1F600}"), m) != Completed(m)
    ensures Validate(StringLengthDefault(None, Some(5)), Str("\U{1F600}\U{1F600}\U{1F600}"), m).Completed?
    ensures HasErrorLike(Validate(StringLengthDefault(None, Some(5)), Str("\U{1F600}\U{1F600}\U{1F600}"), m).messages,
                         GlobalMessage(LENGTH_CODE, Some(LENGTH_MAX_TEXT), []))
  {
    var s := "\U{1F600}\U{1F600}\U{1F600}";
    EmojiMeasuresSix();
    StringLengthHolds(None, Some(5), Str(s));
    LengthDefaultReports(None, Some(5), Str(s), m);
  }

  /** Three emoji have no blanks to trim and measure six UTF-16 units. */
  lemma EmojiMeasuresSix()
    ensures MeasuredLength(Str("\U{1F600}\U{1F600}\U{1F600}")) == 6
  {
    var s := "\U{1F600}\U{1F600}\U{1F600}";
    TrimUnpadded(s);
    assert Utf16Length(s) == 6 by {
      assert s[1..][1..][1..] == [];
    }
  }

  /**
   * The digits pattern accepts "123", rejects "123a" (the whole text must
   * match) and, under a false condition, rejects nothing.
   */
  lemma PatternCases(m: Messages)
    ensures Validate(PatternDefault(DigitsRegex), Str("123"), m) == Completed(m)
    ensures Validate(PatternDefault(DigitsRegex), Str("123a"), m).Completed?
    ensures HasErrorLike(Validate(PatternDefault(DigitsRegex), Str("123a"), m).messages,
                         GlobalMessage(PATTERN_CODE, Some(PATTERN_TEXT), []))
    ensures Validate(PatternValidator(Some(FalsePredicate()), GlobalMessage(PATTERN_CODE, Some(PATTERN_TEXT), []),
                                      None, DigitsRegex), Str("123a"), m) == Completed(m)
  {
    var message := GlobalMessage(PATTERN_CODE, Some(PATTERN_TEXT), []);
    PatternOutcome(None, message, None, DigitsRegex, Str("123"), m);
    PatternOutcome(None, message, None, DigitsRegex, Str("123a"), m);
    assert !('0' <= "123a"[3] <= '9');
    AddedErrorIsLike(m, Report(message, Str("123a"), Str("123a")));
  }

  /** A template's own parameters are kept; without them the error gets `[ctx, ctx]`. */
  lemma FixedErrorParameterCases(m: Messages)
    ensures Validate(FixedFromCode("theCode", "theMessage"), SomeObject, m).Completed?
    ensures Validate(FixedFromCode("theCode", "theMessage"), SomeObject, m).messages.errors[|m.errors|].parameters
         == Some([SomeObject, SomeObject])
    ensures Validate(FixedFromMessage(GlobalMessage("theCode", Some("theMessage"),
                                                    [Str("param1"), Str("param2"), Str("param3")])), SomeObject, m)
              .Completed?
    ensures Validate(FixedFromMessage(GlobalMessage("theCode", Some("theMessage"),
                                                    [Str("param1"), Str("param2"), Str("param3")])), SomeObject, m)
              .messages.errors[|m.errors|].parameters
         == Some([Str("param1"), Str("param2"), Str("param3")])
  {
    FixedAlwaysReports(GlobalMessage("theCode", Some("theMessage"), []), SomeObject, m);
    FixedAlwaysReports(GlobalMessage("theCode", Some("theMessage"), [Str("param1"), Str("param2"), Str("param3")]),
                       SomeObject, m);
  }

  /**
   * A stopping composite whose first child is a fixed error never consults
   * the second child, whatever it is; a non-stopping one runs both.
   */
  lemma CompositeStopCases(second: Validator, ctx: Value, m: Messages)
    ensures Validate(CompositeValidator(None, true, None, [FixedFromCode("theCode", "theMessage"), second]), ctx, m)
         == Validate(FixedFromCode("theCode", "theMessage"), ctx, m)
    ensures Validate(CompositeValidator(None, false, None, [FixedFromCode("theCode", "theMessage"), second]), ctx, m)
         == Validate(second, ctx, Validate(FixedFromCode("theCode", "theMessage"), ctx, m).messages)
  {
    var first := FixedFromCode("theCode", "theMessage");
    var cs := [first, second];
    FixedAlwaysReports(GlobalMessage("theCode", Some("theMessage"), []), ctx, m);
    var next := Validate(first, ctx, m).messages;
    assert cs[1..] == [second];
    assert Body(CompositeValidator(None, true, None, cs), ctx, m) == RunChildren(cs, ctx, true, ErrorCount(m), m);
    assert Body(CompositeValidator(None, false, None, cs), ctx, m) == RunChildren(cs, ctx, false, ErrorCount(m), m);
    match Validate(second, ctx, next)
    case NullPointer =>
      assert RunChildren(cs[1..], ctx, false, ErrorCount(m), next) == NullPointer;
    case Completed(last) =>
      assert RunChildren(cs[1..], ctx, false, ErrorCount(m), next)
          == RunChildren([], ctx, false, ErrorCount(m), last);
  }

  /**
   * A required check followed by a pattern check, on null: when the composite
   * stops on the first error, the one "required" error is the whole outcome
   * and the pattern is never run; without the stop, the pattern runs on null
   * and throws.
   */
  lemma RequiredThenPatternOnNull(m: Messages)
    ensures Validate(CompositeValidator(None, true, None, [RequiredDefault(), PatternDefault(DigitsRegex)]), Null, m)
         == Completed(AddError(m, GlobalMessage(REQUIRED_CODE, Some(REQUIRED_TEXT), [Null, Null])))
    ensures Validate(CompositeValidator(None, false, None, [RequiredDefault(), PatternDefault(DigitsRegex)]), Null, m)
         == NullPointer
  {
    var cs := [RequiredDefault(), PatternDefault(DigitsRegex)];
    var required := GlobalMessage(REQUIRED_CODE, Some(REQUIRED_TEXT), []);
    var next := AddError(m, Report(required, Null, Null));
    RequiredOutcome(None, required, None, Null, m);
    PatternOutcome(None, GlobalMessage(PATTERN_CODE, Some(PATTERN_TEXT), []), None, DigitsRegex, Null, next);
    assert cs[1..] == [PatternDefault(DigitsRegex)];
    assert Body(CompositeValidator(None, true, None, cs), Null, m) == RunChildren(cs, Null, true, ErrorCount(m), m);
    assert Body(CompositeValidator(None, false, None, cs), Null, m) == RunChildren(cs, Null, false, ErrorCount(m), m);
    assert RunChildren(cs[1..], Null, false, ErrorCount(m), next) == NullPointer;
  }

  /**
   * The guard sees the context and the rule sees the provided value: a guard
   * that admits only objects, over a provider that always yields null, makes a
   * required validator report objects and ignore strings.
   */
  lemma GuardBeforeProviderCases(m: Messages)
    ensures Validate(RequiredValidator(Some((x: Value) => x.Opaque?), GlobalMessage(REQUIRED_CODE, Some(REQUIRED_TEXT), []),
                                       Some((x: Value) => Null)), SomeObject, m).messages.errors
         == m.errors + [GlobalMessage(REQUIRED_CODE, Some(REQUIRED_TEXT), [SomeObject, Null])]
    ensures Validate(RequiredValidator(Some((x: Value) => x.Opaque?), GlobalMessage(REQUIRED_CODE, Some(REQUIRED_TEXT), []),
                                       Some((x: Value) => Null)), Str("text"), m) == Completed(m)
  {
    var v := RequiredValidator(Some((x: Value) => x.Opaque?), GlobalMessage(REQUIRED_CODE, Some(REQUIRED_TEXT), []),
                               Some((x: Value) => Null));
    PredicatedOutcome(v, SomeObject, m);
    RequiredOutcome(Some((x: Value) => x.Opaque?), GlobalMessage(REQUIRED_CODE, Some(REQUIRED_TEXT), []),
                    Some((x: Value) => Null), Str("text"), m);
  }

  /**
   * A not-empty validator over a bean property: a bean whose property is null
   * is reported, one whose property is "stringValue" is not.
   */
  lemma NotEmptyProvidedCases(property: Value -> Value, emptyBean: Value, bean: Value, m: Messages)
    requires property(emptyBean) == Null && property(bean) == Str("stringValue")
    ensures Validate(NotEmptyValidator(None, GlobalMessage("theCode", Some("theMessage"), []), Some(property)),
                     emptyBean, m).Completed?
    ensures HasErrorLike(Validate(NotEmptyValidator(None, GlobalMessage("theCode", Some("theMessage"), []), Some(property)),
                                  emptyBean, m).messages,
                         GlobalMessage("theCode", Some("theMessage"), []))
    ensures Validate(NotEmptyValidator(None, GlobalMessage("theCode", Some("theMessage"), []), Some(property)), bean, m) == Completed(m)
  {
    var message := GlobalMessage("theCode", Some("theMessage"), []);
    NotEmptyOutcome(None, message, Some(property), emptyBean, m);
    NotEmptyOutcome(None, message, Some(property), bean, m);
    AddedErrorIsLike(m, Report(message, emptyBean, Null));
    assert !Blank("stringValue"[0]);
  }
}

=== FILE: text.dfy ===
/**
 * `java.lang.String.trim()`: strips every character whose code is at most
 * U+0020 from both ends of a string (not Unicode white space in general).
 */
module Text {

  /** A character `trim()` removes from either end. */
  predicate Blank(c: char) {
    c <= ' '
  }

  predicate AllBlank(s: string) {
    forall k | 0 <= k < |s| :: Blank(s[k])
  }

  /** The index of the first non-blank character, or `|s|` if there is none. */
  function LeadingBlanks(s: string): (k: nat)
    ensures k <= |s|
    ensures forall i | 0 <= i < k :: Blank(s[i])
    ensures k < |s| ==> !Blank(s[k])
  {
    if |s| == 0 || !Blank(s[0]) then 0 else 1 + LeadingBlanks(s[1..])
  }

  /**
   * Scanning down from `hi` but never below `lo`: the index just past the last
   * non-blank character of `s[lo..hi]`, or `lo` if there is none.
   */
  function TrailingStart(s: string, lo: nat, hi: nat): (j: nat)
    requires lo <= hi <= |s|
    ensures lo <= j <= hi
    ensures forall i | j <= i < hi :: Blank(s[i])
    ensures j > lo ==> !Blank(s[j - 1])
    decreases hi
  {
    if hi == lo || !Blank(s[hi - 1]) then hi else TrailingStart(s, lo, hi - 1)
  }

  /**
   * `t` is `s` with its blank prefix and blank suffix removed: a contiguous
   * slice of `s`, everything outside it blank, and (when not empty) starting
   * and ending with a non-blank character.
   */
  ghost predicate IsTrimOf(t: string, s: string) {
    exists i, j ::
      && 0 <= i <= j <= |s|
      && t == s[i..j]
      && AllBlank(s[..i])
      && AllBlank(s[j..])
      && (|t| > 0 ==> !Blank(t[0]) && !Blank(t[|t| - 1]))
  }

  function Trim(s: string): (t: string)
    ensures IsTrimOf(t, s)
    ensures |t| <= |s|
  {
    var lo := LeadingBlanks(s);
    var hi := TrailingStart(s, lo, |s|);
    assert AllBlank(s[..lo]);
    assert AllBlank(s[hi..]);
    s[lo..hi]
  }

  /** Trimming yields the empty string exactly when every character is blank. */
  lemma {:induction false} TrimEmptyIff(s: string)
    ensures |Trim(s)| == 0 <==> AllBlank(s)
  {
    var lo := LeadingBlanks(s);
    var hi := TrailingStart(s, lo, |s|);
    if AllBlank(s) {
      assert lo == |s|;
    }
    if |Trim(s)| == 0 {
      assert hi == lo;
    }
  }

  /** Any string satisfying the trim description is the one `Trim` computes. */
  lemma {:induction false} TrimUnique(s: string, t: string)
    requires IsTrimOf(t, s)
    ensures t == Trim(s)
  {
    var i, j :|
      && 0 <= i <= j <= |s|
      && t == s[i..j]
      && AllBlank(s[..i])
      && AllBlank(s[j..])
      && (|t| > 0 ==> !Blank(t[0]) && !Blank(t[|t| - 1]));
    if |t| == 0 {
      EmptyTrimUnique(s, i, j);
    } else {
      SliceTrimUnique(s, i, j);
    }
  }

  /** An empty trim means every character is blank. */
  lemma EmptyTrimUnique(s: string, i: nat, j: nat)
    requires i <= j <= |s| && i == j
    requires AllBlank(s[..i]) && AllBlank(s[j..])
    ensures Trim(s) == []
  {
    forall k | 0 <= k < |s|
      ensures Blank(s[k])
    {
      if k < i {
        assert s[..i][k] == s[k];
      } else {
        assert s[j..][k - j] == s[k];
      }
    }
    TrimEmptyIff(s);
  }

  /** A non-empty slice with blank surroundings and non-blank ends is the trim. */
  lemma SliceTrimUnique(s: string, i: nat, j: nat)
    requires i < j <= |s|
    requires AllBlank(s[..i]) && AllBlank(s[j..])
    requires !Blank(s[i]) && !Blank(s[j - 1])
    ensures Trim(s) == s[i..j]
  {
    var lo := LeadingBlanks(s);
    var hi := TrailingStart(s, lo, |s|);
    assert forall k | 0 <= k < i :: s[..i][k] == s[k];
    assert forall k | j <= k < |s| :: s[j..][k - j] == s[k];
    assert i == lo;
    assert j == hi;
  }

  /** Trimming twice is trimming once. */
  lemma TrimIdempotent(s: string)
    ensures Trim(Trim(s)) == Trim(s)
  {
    var t := Trim(s);
    assert t == t[0..|t|];
    assert t[..0] == [];
    assert t[|t|..] == [];
    assert IsTrimOf(t, t);
    TrimUnique(t, t);
  }

  /** A string with no blank at either end is its own trim. */
  lemma TrimUnpadded(s: string)
    requires |s| > 0 ==> !Blank(s[0]) && !Blank(s[|s| - 1])
    ensures Trim(s) == s
  {
    assert s == s[0..|s|];
    assert s[..0] == [];
    assert s[|s|..] == [];
    assert IsTrimOf(s, s);
    TrimUnique(s, s);
  }

  /**
   * `String.length()`: Java strings count UTF-16 code units, so a character
   * beyond U+FFFF (stored as a surrogate pair) counts twice.
   */
  function Utf16Length(s: string): (n: nat)
    ensures |s| <= n <= 2 * |s|
  {
    if |s| == 0 then 0
    else (if s[0] as int < 0x1_0000 then 1 else 2) + Utf16Length(s[1..])
  }

  /** Text made only of characters up to U+FFFF has one code unit per character. */
  lemma {:induction false} Utf16LengthBasic(s: string)
    requires forall i | 0 <= i < |s| :: s[i] as int < 0x1_0000
    ensures Utf16Length(s) == |s|
  {
    if |s| > 0 {
      assert forall i | 0 <= i < |s| - 1 :: s[1..][i] == s[i + 1];
      Utf16LengthBasic(s[1..]);
    }
  }

  /** A character beyond U+FFFF makes the Java length exceed the character count. */
  lemma {:induction false} Utf16LengthSupplementary(s: string, k: nat)
    requires k < |s| && s[k] as int >= 0x1_0000
    ensures Utf16Length(s) > |s|
  {
    if k > 0 {
      assert s[1..][k - 1] == s[k];
      Utf16LengthSupplementary(s[1..], k - 1);
    }
  }
}

=== FILE: validators.dfy ===
/**
 * The validator tree and its evaluation.
 *
 * Every validator has a `Setup`: an optional guard, tested on the raw context
 * object, and an optional value provider that extracts the subject the body
 * works on. Leaf validators (`Predicated`, `FixedError`) also carry an optional
 * message template. `Validate` is the single, final entry point every kind goes
 * through: guard first, then the kind's body.
 *
 * Evaluation is total: where the Java code dereferences `null` (a missing
 * validation predicate, a missing message, `toString()` on a `null` subject)
 * the outcome is `NullPointer`, and a composite passes that on without running
 * any further child, just as the exception leaves the Java loop.
 */
module Validators {
  import opened Optional
  import opened Values
  import opened Messaging
  import opened Rules

  /** The fields of a conditional, value-provided validator. */
  datatype Setup = Setup(condition: Option<Value -> bool>, provider: Option<Value -> Value>)

  /** A `Setup` plus the message template of a message-carrying validator. */
  datatype Configured = Configured(setup: Setup, message: Option<Message>)

  datatype Validator =
      /** Tests the subject with its validation rule; reports the message on failure. */
    | Predicated(config: Configured, validation: Option<Rule>)
      /** Reports its message every time its guard lets it run. */
    | FixedError(config: Configured)
      /** Runs its children, in order, on its own subject. */
    | Composite(setup: Setup, stopOnFirstError: bool, children: seq<Validator>)

  /** How a call of `validate` ends: it returns the collection, or it throws a `NullPointerException`. */
  datatype Outcome = Completed(messages: Messages) | NullPointer

  /** The outcome after which a stopping composite goes on to its next child. */
  predicate Continues(o: Outcome, base: nat) {
    o.Completed? && ErrorCount(o.messages) <= base
  }

  /** `o` returns normally with `m` extended by errors only. */
  predicate AppendsErrors(m: Messages, o: Outcome) {
    o.Completed? ==> Extends(m, o.messages) && o.messages.warnings == m.warnings && o.messages.infos == m.infos
  }

  function SetupOf(v: Validator): Setup {
    match v
    case Predicated(c, _) => c.setup
    case FixedError(c) => c.setup
    case Composite(s, _, _) => s
  }

  /** Whether an optional guard lets validation proceed for `ctx`. */
  predicate Admits(condition: Option<Value -> bool>, ctx: Value) {
    condition.None? || condition.value(ctx)
  }

  /** `getValidationValue`: the context itself, or what the provider extracts from it. */
  function Subject(setup: Setup, ctx: Value): (s: Value)
    ensures setup.provider.None? ==> s == ctx
    ensures setup.provider.Some? ==> s == setup.provider.value(ctx)
  {
    match setup.provider
    case None => ctx
    case Some(p) => p(ctx)
  }

  /** `getValidationValueAsString`: `null` for a null subject, else its `toString()`. */
  function SubjectAsString(setup: Setup, ctx: Value): (r: Option<string>)
    ensures r.None? <==> Subject(setup, ctx).Null?
    ensures r.Some? ==> r.value == ToStr(Subject(setup, ctx))
  {
    AsString(Subject(setup, ctx))
  }

  /**
   * The error a leaf appends, built by `fieldMessage`: the template's field,
   * code and text, with the template's own parameters if it has any, else
   * `[ctx, subject]`. As with every built message, an empty parameter list
   * is recorded as absent.
   */
  function Report(template: Message, ctx: Value, subject: Value): (e: Message)
    ensures Like(e, template)
    ensures template.parameters.Some? && |template.parameters.value| > 0 ==> e.parameters == template.parameters
    ensures template.parameters == Some([]) ==> e.parameters.None?
    ensures template.parameters.None? ==> e.parameters == Some([ctx, subject])
  {
    Message(template.field, template.code, template.template,
            ParametersOf(template.parameters.GetOr([ctx, subject])))
  }

  /**
   * `validate(object, messages)`: the guard is tested on the raw context; when
   * it admits (or is absent) the kind's body runs, otherwise the collection is
   * returned as it came in. Validation only ever appends errors.
   */
  function Validate(v: Validator, ctx: Value, m: Messages): (r: Outcome)
    ensures AppendsErrors(m, r)
    ensures !Admits(SetupOf(v).condition, ctx) ==> r == Completed(m)
    decreases v, 1
  {
    if Admits(SetupOf(v).condition, ctx) then Body(v, ctx, m) else Completed(m)
  }

  /** `doValidate`: what each kind does once its guard has admitted `ctx`. */
  function Body(v: Validator, ctx: Value, m: Messages): (r: Outcome)
    ensures AppendsErrors(m, r)
    ensures v.FixedError? ==> (r.NullPointer? <==> v.config.message.None?)
    ensures v.FixedError? && r.Completed? ==> |r.messages.errors| == |m.errors| + 1
    ensures v.Predicated? && r.Completed? ==> |r.messages.errors| <= |m.errors| + 1
    ensures v.Predicated? && v.validation.None? ==> r.NullPointer?
    decreases v, 0
  {
    match v
    case Predicated(c, rule) =>
      var s := Subject(c.setup, ctx);
      if rule.None? || !Applicable(rule.value, s) then NullPointer
      else if Holds(rule.value, s) then Completed(m)
      else if c.message.None? then NullPointer
      else Completed(AddError(m, Report(c.message.value, ctx, s)))
    case FixedError(c) =>
      if c.message.None? then NullPointer
      else Completed(AddError(m, Report(c.message.value, ctx, Subject(c.setup, ctx))))
    case Composite(setup, stop, cs) =>
      RunChildren(cs, Subject(setup, ctx), stop, ErrorCount(m), m)
  }

  /**
   * The composite's loop: each child validates `subject`; with `stop` set, the
   * loop ends after the first child that leaves more than `base` errors. A
   * child that throws ends the loop with the exception.
   */
  function RunChildren(cs: seq<Validator>, subject: Value, stop: bool, base: nat, m: Messages): (r: Outcome)
    ensures AppendsErrors(m, r)
    decreases cs
  {
    if |cs| == 0 then Completed(m)
    else
      match Validate(cs[0], subject, m)
      case NullPointer => NullPointer
      case Completed(next) =>
        if stop && ErrorCount(next) > base then Completed(next)
        else RunChildren(cs[1..], subject, stop, base, next)
  }
}

=== FILE: values.dfy ===
/**
 * The objects a validator sees. Java passes `Object`s around; all the
 * validators ever do with one is compare it with `null`, call `toString()` on
 * it, hand it to a user-supplied function, or store it as a message parameter.
 */
module Values {
  import opened Optional

  /**
   * `Null` is Java's `null`; `Str` a `java.lang.String`; `Opaque` any other
   * object, identified by `id` (standing for object identity) and carrying
   * the text its `toString()` returns.
   */
  datatype Value = Null | Str(chars: string) | Opaque(id: nat, rendering: string)

  /** `v.toString()`: only defined on a non-null object (Java throws otherwise). */
  function ToStr(v: Value): string
    requires !v.Null?
  {
    match v
    case Str(s) => s
    case Opaque(_, r) => r
  }

  /**
   * `value == null ? null : value.toString()`, the null-safe string form used by
   * `getValidationValueAsString` and by the string-length rule.
   */
  function AsString(v: Value): (r: Option<string>)
    ensures r.None? <==> v.Null?
    ensures r.Some? ==> r.value == ToStr(v)
    ensures v.Str? ==> r == Some(v.chars)
  {
    if v.Null? then None else Some(ToStr(v))
  }
}
